=== FILE: README.md ===
# VibeKit local sandbox, modelled in Dafny

This project models the local container sandbox of VibeKit. The sandbox makes
one long-lived coding sandbox out of immutable container snapshots:

- The image helpers map an agent type (`claude`, `codex`, `opencode`, `gemini`,
  `grok`) to a registry image, a Dockerfile and a local tag.
- The base container is created once per instance and memoised. Creation runs a
  registry → Dockerfile → fallback-image strategy chain, then sets the
  instance's environment variables.
- The working directory is kept as a lazy snapshot. Every command and every file
  write replaces it.
- `commands.run` returns foreground, background and failed commands as results.
  It emits an ordered stream of events: a start record, one event per output
  line, then an end record.
- `kill`, `pause` and `getHost` are the remaining instance operations.
- The provider facade offers `create`, `resume` and `listEnvironments`.

The project also models pure logic from the command-line tools:

- the settings menu state machine (`settings.js`);
- the dashboard's duration formatting, seven-day session series, colours and
  display names (`page.tsx`);
- the Northflank plan selection and template fields (`northflank.ts`);
- the telemetry client's query endpoint and synthetic event feed
  (`telemetry-api.ts`);
- the Daytona snapshot command line (`daytona.ts`).

The container engine is not modelled. It is a `Sandbox.Host` record of
uninterpreted functions, passed to every operation:

- which image strategies load;
- what `mkdir -p` leaves in the working directory;
- what a shell command prints and leaves behind;
- how files outside the working directory read;
- whether `connect` reaches the engine at all.

Every operation is a pure function from one `Sandbox.Instance` to the next. It
also yields what the call returned or threw and the events it emitted, in
order. `Lifecycle` states the properties of sequences of operations.

Modules, one per file:

| module | file | models |
|---|---|---|
| `Wrappers` | wrappers.dfy | `Option`, `Result`, JavaScript truthiness of optional strings |
| `Text` | text.dfy | `toString(radix)`, `parseInt`, `split`/`join`, `trim`, `toLowerCase` |
| `Paths` | paths.dfy | how the engine resolves a file path against the working directory |
| `Images` | images.dfy | image helpers and `createBaseContainer` |
| `Streaming` | streaming.dfy | exit-code extraction, line splitting, event framing |
| `Sandbox` | sandbox.dfy | `LocalSandboxInstance` |
| `Lifecycle` | lifecycle.dfy | properties of operation sequences |
| `Provider` | provider.dfy | `LocalSandboxProvider` |
| `Settings` | settings.dfy | the settings menu |
| `Dashboard` | dashboard.dfy | the analytics page helpers |
| `Northflank` | northflank.dfy | plan mapping and template fields |
| `Telemetry` | telemetry.dfy | query endpoint and event feed |
| `Daytona` | daytona.dfy | the snapshot command line |

Three behaviours of the code are easy to miss; the model keeps each of them.

- **Exit codes.** A failed command's exit code is read out of the engine's
  error message (vibekit-dagger.ts:314-321), not from whether the command
  succeeded. So a failure whose message says `exit code 0` is returned with
  exit code 0 (`Lifecycle.FailureCanReportZero`).
- **Snapshot timing.** A foreground command's working directory is captured
  from its lazy container before its output is awaited (vibekit-dagger.ts:261-268).
  A failed command's snapshot is therefore kept, and it fails again when the
  next command evaluates it (`Lifecycle.FailedCommandPoisonsNext`).
- **Operations after kill.** `kill` only drops the snapshot and the base
  container and leaves the memoised initialisation in place
  (vibekit-dagger.ts:541-548, 193-198):
  - a run after an initialise-then-kill returns a failure result;
  - an instance killed before first use initialises and works normally
    (`Lifecycle.KilledInstanceRefusesWork`, `Lifecycle.KillBeforeFirstUse`).

File paths are resolved as the engine resolves them (module `Paths`): a
relative path is taken inside the working directory, empty and `.` segments
are dropped, and `..` climbs one level. Only a path that lands strictly
inside the working directory is part of the snapshot.

## Model

| member | source | states |
|---|---|---|
| Images.DockerfilePath | packages/dagger/src/dagger/vibekit-dagger.ts:89-104 | a Dockerfile path exists exactly for the five known agent types; it is `assets/dockerfiles/Dockerfile.` followed by the agent type itself |
| Images.DockerfileNames | packages/dagger/src/dagger/vibekit-dagger.ts:89-104 | the claude and grok Dockerfile paths, and no path for an unknown type |
| Images.MoreDockerfileNames | packages/dagger/src/dagger/vibekit-dagger.ts:92-97 | the codex, opencode and gemini Dockerfile paths |
| Images.RegistryImage | packages/dagger/src/dagger/vibekit-dagger.ts:141-168 | a truthy user-configured image wins; otherwise the fallback image is chosen exactly for unknown or absent types, and known types get a `superagent-ai/vibekit-` image |
| Images.RegistryNames | packages/dagger/src/dagger/vibekit-dagger.ts:155-160 | the published claude and codex image names |
| Images.MoreRegistryNames | packages/dagger/src/dagger/vibekit-dagger.ts:161-164 | the published gemini and opencode image names |
| Images.GrokRegistryName | packages/dagger/src/dagger/vibekit-dagger.ts:165-166 | grok's image lives in the `vibekit-grok-cli` repository |
| Images.FallbackNames | packages/dagger/src/dagger/vibekit-dagger.ts:167-168 | unknown and absent agent types map to `ubuntu:24.04` |
| Images.RegistryPrefix | packages/dagger/src/dagger/vibekit-dagger.ts:111-116 | no registry part exactly when the registry is unset, empty or `docker.io`; otherwise the registry followed by `/` |
| Images.ConfigurableRegistryImage | packages/dagger/src/dagger/vibekit-dagger.ts:107-138 | fallback image exactly for unknown types; a known type's name is the registry part, then the publisher (`dockerHubUser`, or `superagent-ai` when that is falsy), then `/`, its repository and `:latest` |
| Images.PrivateRegistryName | packages/dagger/src/dagger/vibekit-dagger.ts:111-134 | registry and publisher account both appear in the configurable name |
| Images.DockerHubNames | packages/dagger/src/dagger/vibekit-dagger.ts:111-134 | with the registry unset or set to `docker.io`, a known agent's name is the publisher (`dockerHubUser`, or `superagent-ai` when falsy), `/`, its repository and `:latest`, with no registry part |
| Images.EmptyConfigStrings | packages/dagger/src/dagger/vibekit-dagger.ts:111-112 | empty registry and publisher strings give the same name as no configuration at all |
| Images.ConfigurableMatchesDefault | packages/dagger/src/dagger/vibekit-dagger.ts:107-168 | with nothing configured, the configurable and the default helper give the same image for every agent type |
| Images.ImageTag | packages/dagger/src/dagger/vibekit-dagger.ts:171-173 | local tag `vibekit-<type>:latest`, `default` when the type is falsy |
| Images.CreateBase | packages/dagger/src/dagger/vibekit-dagger.ts:413-508 | the strategies tried, in order: the primary one, then the Dockerfile retry, then the fallback image; every strategy tried before the last was refused; the container comes from the accepted one with the environment set; a failure escapes only after every retry was refused |
| Images.FallbackGuaranteesContainer | packages/dagger/src/dagger/vibekit-dagger.ts:465-499 | if the fallback image loads, creation always yields a container |
| Images.KnownAgentTriesRegistryFirst | packages/dagger/src/dagger/vibekit-dagger.ts:420-437 | a known agent type without an override first tries its published image |
| Images.UnknownAgentSkipsRegistry | packages/dagger/src/dagger/vibekit-dagger.ts:420-464 | an unknown or absent agent type never tries a registry image |
| Streaming.FirstMatch | packages/dagger/src/dagger/vibekit-dagger.ts:317-321 | finds the leftmost `exit code ` followed by a digit, and there is none before it |
| Streaming.DigitRunEnd | packages/dagger/src/dagger/vibekit-dagger.ts:319 | the maximal run of decimal digits starting at a position |
| Streaming.CapturedDigits | packages/dagger/src/dagger/vibekit-dagger.ts:319 | the captured group is a non-empty run of decimal digits |
| Streaming.ExitCodeOf | packages/dagger/src/dagger/vibekit-dagger.ts:317-321 | the extracted exit code is never negative |
| Streaming.ExitCodeCharacterization | packages/dagger/src/dagger/vibekit-dagger.ts:317-321 | 1 when no `exit code <digits>` occurs; otherwise the decimal value of the digits after the leftmost occurrence |
| Streaming.NoPhraseMeansOne | packages/dagger/src/dagger/vibekit-dagger.ts:317-321 | a message that cannot contain the phrase gives exit code 1 |
| Streaming.ExitCodeExamples | packages/dagger/src/dagger/vibekit-dagger.ts:317-321 | `exit code 42` gives 42, `exit code 0` gives 0, `exit code: 7` gives 1 |
| Streaming.NonBlank | packages/dagger/src/dagger/vibekit-dagger.ts:277-279 | keeps exactly the lines that are not whitespace-only, untrimmed |
| Streaming.NonBlankAppend | packages/dagger/src/dagger/vibekit-dagger.ts:277-279 | filtering distributes over concatenation, so line order is kept |
| Streaming.OutputLines | packages/dagger/src/dagger/vibekit-dagger.ts:277-279 | the emitted lines are exactly the non-blank pieces of the output split at newlines |
| Streaming.OutputLinesCoverOutput | packages/dagger/src/dagger/vibekit-dagger.ts:277-279 | splitting loses nothing: the pieces join back to the output |
| Streaming.UpdateLines | packages/dagger/src/dagger/vibekit-dagger.ts:284-287 | one `update` per stdout line, in order |
| Streaming.ErrorLines | packages/dagger/src/dagger/vibekit-dagger.ts:284-287 | one `error` per stderr line, in order |
| Streaming.SuccessEvents | packages/dagger/src/dagger/vibekit-dagger.ts:294-302 | stdout line updates, then stderr line errors, then one `STDERR:` summary exactly when stderr is non-empty |
| Streaming.OutputLinesOfEmpty | packages/dagger/src/dagger/vibekit-dagger.ts:294-302 | empty output emits no line events |
| Streaming.FailureResult | packages/dagger/src/dagger/vibekit-dagger.ts:309-328 | a failure yields empty stdout, the message as stderr, and the extracted exit code |
| Streaming.Framed | packages/dagger/src/dagger/vibekit-dagger.ts:219-227 | the events are the start record, the body, then the end record carrying the exit code |
| Streaming.FramedIsWellFramed | packages/dagger/src/dagger/vibekit-dagger.ts:368-379 | a framed stream has exactly one start and one end record, at the ends |
| Streaming.SuccessEventsAreBody | packages/dagger/src/dagger/vibekit-dagger.ts:270-302 | no line event of a successful run is a start or end record |
| Sandbox.Resolve | packages/dagger/src/dagger/vibekit-dagger.ts:521 | a path is part of the working directory exactly when, once resolved by the engine, it lies strictly under the resolved working directory; the result is the remainder below it |
| Sandbox.ResolveNames | packages/dagger/src/dagger/vibekit-dagger.ts:521-537 | a path of plain names, relative or under an absolute working directory, lands inside and names those entries |
| Sandbox.RedundantSegments | packages/dagger/src/dagger/vibekit-dagger.ts:521-537 | `a//b`, `a/./b` and `./a` name the same file as `a/b`, `a/b` and `a` |
| Sandbox.ParentSegment | packages/dagger/src/dagger/vibekit-dagger.ts:521-537 | `n/../y` names the same file as `y` |
| Sandbox.ResolveDotExample | packages/dagger/src/dagger/vibekit-dagger.ts:521-537 | in `/vibe0`, `./a` and `a` are the same file `a` |
| Sandbox.ResolveClimbOutExample | packages/dagger/src/dagger/vibekit-dagger.ts:535-537 | in `/vibe0`, `/vibe0/../etc/x` lands outside the working directory |
| Sandbox.ResolveParentExample | packages/dagger/src/dagger/vibekit-dagger.ts:521 | in `/vibe0`, `../etc/hostname` lands outside the working directory |
| Sandbox.PutFile | packages/dagger/src/dagger/vibekit-dagger.ts:534-536 | a write changes exactly the file its resolved path names in the working directory, or nothing when the path resolves outside |
| Sandbox.Perform | packages/dagger/src/dagger/vibekit-dagger.ts:258-268 | a command runs in the restored directory, and fails with the restore's error if restoring fails |
| Sandbox.EnsureInitialized | packages/dagger/src/dagger/vibekit-dagger.ts:193-198 | starts creation only when none was started; a settled outcome, success or failure, is returned again unchanged; success leaves a base container |
| Sandbox.Execute | packages/dagger/src/dagger/vibekit-dagger.ts:235-366 | initialisation state and base container are untouched; the events between the records are only line events and errors |
| Sandbox.Run | packages/dagger/src/dagger/vibekit-dagger.ts:213-380 | throws exactly when initialisation failed, then emitting nothing and keeping the snapshot; otherwise every result comes with a start record and a matching end record |
| Sandbox.UntilError | packages/dagger/src/dagger/vibekit-dagger.ts:284-287 | the events delivered before the first `error` emission, which is where delivery stops |
| Sandbox.RunUnobserved | packages/dagger/src/dagger/vibekit-dagger.ts:309-366 | as written, without an `error` listener: same state change as `Run`, and the same answer whenever it does not throw |
| Sandbox.UnobservedFailureRejects | packages/dagger/src/dagger/vibekit-dagger.ts:348-366 | with an unreachable engine and no `error` listener, the run rejects after the start record only; `Run` returns the failure result |
| Sandbox.ReadFile | packages/dagger/src/dagger/vibekit-dagger.ts:511-524 | reading only initialises: it keeps the snapshot and emits nothing |
| Sandbox.WriteFile | packages/dagger/src/dagger/vibekit-dagger.ts:526-539 | a write succeeds exactly when initialised, connected and holding a base container, and then records the write on the restored snapshot; otherwise the snapshot is kept |
| Sandbox.Kill | packages/dagger/src/dagger/vibekit-dagger.ts:541-548 | drops snapshot and base container and stops the instance, keeping the initialisation outcome |
| Sandbox.Pause | packages/dagger/src/dagger/vibekit-dagger.ts:550-552 | pausing leaves the instance unchanged |
| Sandbox.GetHost | packages/dagger/src/dagger/vibekit-dagger.ts:554-556 | the host is always `localhost` |
| Lifecycle.Visible | packages/dagger/src/dagger/vibekit-dagger.ts:388-411 | without a snapshot, a command sees the freshly created working directory |
| Lifecycle.CommandSeesPreviousWorkspace | packages/dagger/src/dagger/vibekit-dagger.ts:258-328 | a foreground command runs in the current working directory; its result and events follow from the engine's answer, and the next command sees what it left |
| Lifecycle.RunReplacesSnapshot | packages/dagger/src/dagger/vibekit-dagger.ts:241-264 | every run, foreground or background, replaces the snapshot with its own |
| Lifecycle.PoisonedWorkspaceFailsAgain | packages/dagger/src/dagger/vibekit-dagger.ts:258-268 | when the snapshot cannot be evaluated, commands fail with that error and keep it failing, and a read of any path throws it |
| Lifecycle.FailedCommandPoisonsNext | packages/dagger/src/dagger/vibekit-dagger.ts:260-268 | the snapshot is assigned before output is awaited, so a failed command makes the next command fail with the same message |
| Lifecycle.SecondCommandSeesFirst | test/local-simple.test.ts:299-314 | a command runs in the directory the previous successful command left |
| Lifecycle.BackgroundReturnsAtOnce | packages/dagger/src/dagger/vibekit-dagger.ts:241-256 | a background run returns exit code 0 with `Background process started: <cmd>`, emits only the two records, and does not depend on the command's outcome |
| Lifecycle.FailureCanReportZero | packages/dagger/src/dagger/vibekit-dagger.ts:309-328 | a failure whose message reads `exit code 0` is returned with exit code 0 |
| Lifecycle.UnobservedStderrRejects | packages/dagger/src/dagger/vibekit-dagger.ts:294-316 | a successful command with stderr output, run without an `error` listener, rejects after the start record and the stdout lines |
| Lifecycle.WriteThenRead | packages/dagger/src/dagger/vibekit-dagger.ts:511-539 | a file written inside the working directory reads back with its contents |
| Lifecycle.WriteThenReadAlias | packages/dagger/src/dagger/vibekit-dagger.ts:511-539 | a file written under one spelling reads back under any spelling that resolves to it |
| Lifecycle.WriteLeavesOtherFiles | packages/dagger/src/dagger/vibekit-dagger.ts:526-539 | a write changes no other file's contents |
| Lifecycle.WriteOutsideWorkdirIsLost | packages/dagger/src/dagger/vibekit-dagger.ts:534-536 | a write outside the working directory is not kept in the snapshot |
| Lifecycle.ReadIsRepeatable | packages/dagger/src/dagger/vibekit-dagger.ts:511-524 | once initialised, reading changes nothing and gives the same answer again |
| Lifecycle.KillIdempotent | test/local-simple.test.ts:124-129 | killing twice is the same as killing once |
| Lifecycle.KilledInstanceRefusesWork | packages/dagger/src/dagger/vibekit-dagger.ts:541-548 | after initialise-then-kill, run returns exit code 1 with `Base container not initialized`, and reads and writes throw it |
| Lifecycle.KillBeforeFirstUse | packages/dagger/src/dagger/vibekit-dagger.ts:193-198 | an instance killed before first use still initialises on first use |
| Lifecycle.InitFailureIsSticky | packages/dagger/src/dagger/vibekit-dagger.ts:193-198 | after a failed initialisation every run, read and write throws the same error and changes nothing |
| Lifecycle.Apply | packages/dagger/src/dagger/vibekit-dagger.ts:193-198 | no operation changes a settled initialisation outcome or installs a different base container |
| Lifecycle.InitAtMostOnce | packages/dagger/src/dagger/vibekit-dagger.ts:193-198 | over any sequence of operations, base-container creation starts at most once |
| Lifecycle.SettledInitPersists | packages/dagger/src/dagger/vibekit-dagger.ts:193-198 | over any sequence of operations, a settled initialisation outcome is kept |
| Provider.SandboxId | packages/dagger/src/dagger/vibekit-dagger.ts:567-569 | the identifier is `dagger-`, the agent type or `default`, `-`, and the base-36 creation time |
| Provider.TimestampOf | packages/dagger/src/dagger/vibekit-dagger.ts:567-569 | the text after the last dash is a dash-free suffix of the identifier |
| Provider.NoDashInDigits | packages/dagger/src/dagger/vibekit-dagger.ts:567-569 | base-36 digits contain no dash |
| Provider.TimestampOfSuffix | packages/dagger/src/dagger/vibekit-dagger.ts:567-569 | the suffix after the last dash is recovered whatever the prefix is |
| Provider.SandboxIdRoundTrip | packages/dagger/src/dagger/vibekit-dagger.ts:567-569 | the creation time is read back from the identifier |
| Provider.Create | packages/dagger/src/dagger/vibekit-dagger.ts:562-588 | a fresh, uninitialised instance with the given environment; working directory defaults to `/vibe0`; a Dockerfile is set exactly for a known agent type when registry images are not preferred |
| Provider.Resume | packages/dagger/src/dagger/vibekit-dagger.ts:590-594 | a default instance with no agent type, no environment and the default working directory |
| Provider.ResumeIgnoresId | packages/dagger/src/dagger/vibekit-dagger.ts:590-594 | the identifier passed to resume makes no difference |
| Provider.ListEnvironments | packages/dagger/src/dagger/vibekit-dagger.ts:596-600 | there are never any environments to list |
| Provider.FirstRunInitialisesAndCreatesWorkdir | packages/dagger/src/dagger/vibekit-dagger.ts:388-411 | the first run on a new instance creates the base container with the instance's environment, and runs in the freshly created working directory |
| Settings.Merge | packages/cli/src/components/settings.js:107-124 | sections present in the file replace the current ones; a missing or unreadable file keeps them |
| Settings.MergeExtremes | packages/cli/src/components/settings.js:112-115 | a complete file gives exactly its settings; an empty one changes nothing |
| Settings.MergeIdempotent | packages/cli/src/components/settings.js:112-115 | loading the same file twice is loading it once |
| Settings.MenuItems | packages/cli/src/components/settings.js:34-103 | main and analytics menus have 3 items, settings 5; main opens analytics, settings, exit; submenus end with back-to-main |
| Settings.Toggle | packages/cli/src/components/settings.js:187-254 | a toggle flips exactly its one flag and leaves every other setting unchanged |
| Settings.FlagsDetermine | packages/cli/src/components/settings.js:11-26 | the five flags and the sandbox type determine the settings |
| Settings.ToggleInvolution | packages/cli/src/components/settings.js:187-254 | toggling twice restores the settings |
| Settings.TogglesCommute | packages/cli/src/components/settings.js:187-254 | toggles applied in either order give the same settings |
| Settings.Loaded | packages/cli/src/components/settings.js:107-124 | loading ends with the merged settings and keeps the menu and cursor |
| Settings.Switch | packages/cli/src/components/settings.js:151-162 | switching menus puts the cursor on the first item and keeps the settings |
| Settings.Save | packages/cli/src/components/settings.js:126-133 | saving writes the file; the settings change only if the write succeeds |
| Settings.Activate | packages/cli/src/components/settings.js:147-258 | activating the selected item keeps the cursor in range |
| Settings.ActivateEffects | packages/cli/src/components/settings.js:147-258 | navigation has no effect; the dashboard item quits and starts the dashboard; exit quits; a toggle saves the flipped settings first, then the proxy toggle starts or stops the proxy only when its running state disagrees with the new flag and the aliases toggle sets the aliases up or down |
| Settings.Step | packages/cli/src/components/settings.js:135-267 | the cursor stays within the current menu; all input is ignored while loading |
| Settings.OpeningIsValid | packages/cli/src/components/settings.js:11-29 | the menu opens valid, and after loading holds the defaults merged with the file |
| Settings.CursorWraps | packages/cli/src/components/settings.js:138-141 | up wraps from the first item to the last, down from the last to the first; `k` and `j` act like up and down |
| Settings.UpDownInverse | packages/cli/src/components/settings.js:138-141 | up then down, or down then up, restores the state |
| Settings.CursorCycles | packages/cli/src/components/settings.js:140-141 | n presses of down move the cursor n places modulo the menu size, changing nothing else |
| Settings.Walk | packages/cli/src/components/settings.js:140-141 | repeated down presses keep the state valid |
| Settings.BackFromSubmenu | packages/cli/src/components/settings.js:142-146 | left, escape or `q` in a submenu return to the main menu at its first item |
| Settings.KeysOnMain | packages/cli/src/components/settings.js:259-265 | on the main menu left does nothing, and escape or `q` quit |
| Settings.ActivateToggle | packages/cli/src/components/settings.js:187-254 | activating a toggle item saves and applies the settings with that flag flipped, and activating it again restores them |
| Settings.MenuChangeResetsCursor | packages/cli/src/components/settings.js:142-162 | whatever the key, a menu change puts the cursor on the first item |
| Settings.OnlyTogglesChangeSettings | packages/cli/src/components/settings.js:135-267 | whatever the key, the settings change only by the toggle under the cursor, flipping its one flag |
| Settings.FailedSaveKeepsSettings | packages/cli/src/components/settings.js:126-133 | when the save fails, activation leaves the settings as they were |
| Settings.OpenThenBack | packages/cli/src/components/settings.js:151-162 | opening a submenu then going back returns to the main menu with settings unchanged |
| Dashboard.ShowDuration | packages/cli/src/dashboard/app/page.tsx:74-86 | the shown hours, minutes and seconds bracket the duration; minute and second components are below 60 |
| Dashboard.FormatDuration | packages/cli/src/dashboard/app/page.tsx:79-85 | the text ends in `s` exactly when it shows no hours |
| Dashboard.DurationExamples | packages/cli/src/dashboard/app/page.tsx:74-86 | 3723000 ms shows 1h 2m, 125999 ms shows 2m 5s, 999 ms shows 0s, -1 ms shows -1s |
| Dashboard.Recent | packages/cli/src/dashboard/app/page.tsx:109 | the first ten sessions in order, or all of them when there are fewer |
| Dashboard.RecentIgnoresLater | packages/cli/src/dashboard/app/page.tsx:109 | sessions after the tenth never show, and trimming twice is trimming once |
| Dashboard.Slot | packages/cli/src/dashboard/app/page.tsx:190-197 | a session has a day exactly when it started 0 to 6 whole days ago, and lands 6 minus that |
| Dashboard.InitialBucket | packages/cli/src/dashboard/app/page.tsx:174-186 | a day holds the date plus every default and lower-cased breakdown agent, each at zero |
| Dashboard.InitialSeries | packages/cli/src/dashboard/app/page.tsx:169-187 | the series has seven days |
| Dashboard.SeriesLabels | packages/cli/src/dashboard/app/page.tsx:169-172 | day j is labelled with the weekday of 6 − j days ago, unless an agent named `date` overwrote the label |
| Dashboard.Tally | packages/cli/src/dashboard/app/page.tsx:190-208 | counting a session keeps seven days with the same fields |
| Dashboard.TallyAll | packages/cli/src/dashboard/app/page.tsx:190-208 | counting all sessions keeps seven days with the same fields |
| Dashboard.TimeSeries | packages/cli/src/dashboard/app/page.tsx:162-211 | the series has seven days |
| Dashboard.Hits | packages/cli/src/dashboard/app/page.tsx:196-202 | a day's hits for an agent are at most the number of sessions |
| Dashboard.TallyCounts | packages/cli/src/dashboard/app/page.tsx:190-208 | each agent field of each day ends as the number of sessions landing there |
| Dashboard.MatchesNone | packages/cli/src/dashboard/app/page.tsx:190-208 | a session that reaches none of the fields counts towards none |
| Dashboard.MatchesAtMostOne | packages/cli/src/dashboard/app/page.tsx:190-208 | a session lands on one day under one agent key, so it counts towards at most one of any distinct fields |
| Dashboard.HitsSumStep | packages/cli/src/dashboard/app/page.tsx:190-208 | one more session adds to the summed counts exactly the number of fields it counts towards |
| Dashboard.HitsSumEmpty | packages/cli/src/dashboard/app/page.tsx:190-208 | with no sessions every count is zero |
| Dashboard.HitsTotalBounded | packages/cli/src/dashboard/app/page.tsx:190-208 | the counts of any distinct (day, agent) fields add up to at most the number of sessions |
| Dashboard.TimeSeriesCounts | packages/cli/src/dashboard/app/page.tsx:162-211 | the series keeps its fields, and each agent field counts the sessions of that agent on that day |
| Dashboard.AgentNamedDateReplacesLabel | packages/cli/src/dashboard/app/page.tsx:198-205 | a session whose agent is named `Date` turns today's label into a count of 1 |
| Dashboard.AgentColor | packages/cli/src/dashboard/app/page.tsx:298-318 | agents with a fixed colour get it; the rest get fallback colour index mod 6 |
| Dashboard.ColorPeriodic | packages/cli/src/dashboard/app/page.tsx:309-317 | colours repeat every six agents; fixed colours ignore the index |
| Dashboard.DisplayName | packages/cli/src/dashboard/app/page.tsx:43-51 | claude shows as claude-code and gemini as gemini-cli; cursor and opencode keep their names; other keys pass through unchanged |
| Dashboard.DisplayNameIdempotent | packages/cli/src/dashboard/app/page.tsx:43-51 | mapping a display name again changes nothing |
| Northflank.PlanFor | src/cli/commands/providers/northflank.ts:9-15 | the chosen plan fits the request and no smaller plan does |
| Northflank.FitsUpward | src/cli/commands/providers/northflank.ts:9-15 | a larger plan fits whatever a smaller one fits |
| Northflank.PlanMonotone | src/cli/commands/providers/northflank.ts:9-15 | asking for more CPU or memory never picks a smaller plan |
| Northflank.PlanThresholds | src/cli/commands/providers/northflank.ts:11-14 | the 50 plan exactly for cpu ≤ 1 and memory ≤ 1024; the 400 plan exactly above 4 CPUs or 4096 memory |
| Northflank.GenerateTemplate | src/cli/commands/providers/northflank.ts:18-97 | deployment plan from the threshold map, build plan `nf-compute-400-16`, storage of disk × 1024, name `<template>-vibekit`, project `VibeKit-<template>`, service `<template>-env`, Dockerfile `/images/Dockerfile.<template>` |
| Northflank.TemplateNameRoundTrip | src/cli/commands/providers/northflank.ts:23 | the template name is recovered from the generated name |
| Northflank.PlanNamesDistinct | src/cli/commands/providers/northflank.ts:9-15 | different plans have different names |
| Telemetry.Utf8 | packages/dashboard/src/lib/telemetry-api.ts:47-58 | a character encodes as one to four bytes, one byte exactly for ASCII |
| Telemetry.Percent | packages/dashboard/src/lib/telemetry-api.ts:47-58 | each byte becomes three characters, `%` and two hex digits |
| Telemetry.EncodeChar | packages/dashboard/src/lib/telemetry-api.ts:47-58 | a character becomes unreserved characters, `+` or percent escapes; unreserved characters stay |
| Telemetry.FormEncode | packages/dashboard/src/lib/telemetry-api.ts:47-58 | the encoding never shrinks, uses only safe characters, and leaves unreserved text as it is |
| Telemetry.EncodedHasNoSeparators | packages/dashboard/src/lib/telemetry-api.ts:58 | encoded text contains no `&` or `=` |
| Telemetry.EncodeExamples | packages/dashboard/src/lib/telemetry-api.ts:58 | a space becomes `+` and `:` becomes `%3A` |
| Telemetry.Utf8Example | packages/dashboard/src/lib/telemetry-api.ts:58 | `é` becomes `%C3%A9` |
| Telemetry.FormEncodeAppend | packages/dashboard/src/lib/telemetry-api.ts:58 | encoding works character by character |
| Telemetry.Params | packages/dashboard/src/lib/telemetry-api.ts:47-56 | at most four parameters, none exactly when no filter is set; each parameter carries the value of its own filter: agent the agent type, session the session id, since and until their bounds |
| Telemetry.Pair | packages/dashboard/src/lib/telemetry-api.ts:58 | an encoded pair contains no `&` |
| Telemetry.Pairs | packages/dashboard/src/lib/telemetry-api.ts:58 | one encoded pair per parameter, in order |
| Telemetry.QueryString | packages/dashboard/src/lib/telemetry-api.ts:58 | the query string is empty exactly when there are no parameters |
| Telemetry.QueryEndpoint | packages/dashboard/src/lib/telemetry-api.ts:58-59 | `/query` exactly when no filter is set, otherwise `/query?` followed by the query string |
| Telemetry.QueryStringSplits | packages/dashboard/src/lib/telemetry-api.ts:58-59 | splitting the query string at `&` gives back the encoded pairs |
| Telemetry.ParamOrder | packages/dashboard/src/lib/telemetry-api.ts:49-56 | parameters come in the order agent, session, since, until, each present exactly when its filter is set |
| Telemetry.Stamp | packages/dashboard/src/lib/telemetry-api.ts:84 | a timestamp converts exactly when present and within the representable date range |
| Telemetry.StartEvents | packages/dashboard/src/lib/telemetry-api.ts:79-91 | one start event, with the row's id and agent type, stamped startTime exactly when startTime is truthy; fails exactly when that time is not a valid date |
| Telemetry.EndEvents | packages/dashboard/src/lib/telemetry-api.ts:93-105 | one end event, with the row's id and agent type, stamped endTime, with duration end − start or NaN without a start, exactly when endTime is truthy; fails exactly when that time is not a valid date |
| Telemetry.ErrorEvents | packages/dashboard/src/lib/telemetry-api.ts:107-118 | one error event, with the row's id and agent type, stamped `startTime \|\| createdAt` exactly when the status is `error`; fails exactly when that time is not a valid date |
| Telemetry.RowEvents | packages/dashboard/src/lib/telemetry-api.ts:79-118 | succeeds exactly when the truthy startTime and endTime and, for an errored session, `startTime \|\| createdAt` are valid dates, otherwise fails with `RangeError`; start, end and error events in that order, at most one each, present exactly when startTime is truthy, endTime is truthy, and the status is `error`; each carries the row's id and agent type; start stamped startTime, end stamped endTime with duration end − start, error stamped `startTime \|\| createdAt` |
| Telemetry.CollectEvents | packages/dashboard/src/lib/telemetry-api.ts:78-119 | succeeds exactly when every row's events can be stamped, else fails with `RangeError`; then holds exactly the events of the rows, the first row's events first, at most three per row |
| Telemetry.CollectMembers | packages/dashboard/src/lib/telemetry-api.ts:78-119 | the first row's events followed by the rest's are exactly the events of all rows |
| Telemetry.Insert | packages/dashboard/src/lib/telemetry-api.ts:122 | insertion adds exactly the one event |
| Telemetry.PrependSorted | packages/dashboard/src/lib/telemetry-api.ts:122 | an event no older than a sorted list may go in front of it |
| Telemetry.InsertSorted | packages/dashboard/src/lib/telemetry-api.ts:122 | insertion keeps a list sorted newest first |
| Telemetry.SortNewestFirst | packages/dashboard/src/lib/telemetry-api.ts:122 | the result is a permutation of the input, sorted newest first |
| Telemetry.GetEvents | packages/dashboard/src/lib/telemetry-api.ts:69-123 | only the first 20 rows count; the feed holds exactly the events of those rows (each as `Telemetry.RowEvents` states), at most three per row, sorted newest first, and a permutation of the collected events |
| Telemetry.FeedMembers | packages/dashboard/src/lib/telemetry-api.ts:78-122 | sorting a collection of the first twenty rows keeps exactly those rows' events |
| Telemetry.LaterRowsIgnored | packages/dashboard/src/lib/telemetry-api.ts:78 | rows after the twentieth do not change the feed |
| Telemetry.MissingCreatedAtFails | packages/dashboard/src/lib/telemetry-api.ts:112 | an errored session with neither startTime nor createdAt makes the feed fail |
| Daytona.SnapshotName | packages/cli/src/commands/providers/daytona.ts:18-20 | `<workspaceId>-<template>` when the workspace id is truthy, the template otherwise |
| Daytona.BuildArgs | packages/cli/src/commands/providers/daytona.ts:21-33 | eleven arguments: `snapshots create <name>`, then `--cpu`, `--memory`, `--disk` each before its value, ending `--dockerfile <file>` |
| Daytona.ParseArgv | packages/cli/src/commands/providers/daytona.ts:21-33 | every field of a spelled-out snapshot command line reads back |
| Daytona.ReadIntToString | packages/cli/src/commands/providers/daytona.ts:26-30 | the printed numbers read back as the same integers |
| Daytona.BuildArgsRoundTrip | packages/cli/src/commands/providers/daytona.ts:17-34 | the command line gives back the snapshot name, cpu, memory, disk and Dockerfile unchanged |

## Left out

- The engine itself: Dagger's `connect`, the container API, Dockerfile builds and image export. They are uninterpreted functions of `Sandbox.Host`. `connect` is taken to rethrow the callback's error.
- Overlapping `run` calls that race on the snapshot. The model is sequential.
- The `timeoutMs` option, which the source accepts but never uses.
- The `onStdout`/`onStderr` callbacks, the per-line streaming delays and console logging.
- `Date.now()`. Start and end times are the `Streaming.Clock` parameter; the creation time is the `now` parameter of `Provider.Create`.
- The JSON text of the start and end records. They are `Streaming.Payload` values carrying the same fields.
- The `running` flag. It is modelled but never read by the source.
- Image prebuilding, upload, Docker login and registry setup. These are shell-outs to Docker.
- Reading and writing `.vibekit-config.json` and `settings.json`. The user configuration is the `Host.config` input, and an unreadable file reads as empty. The settings file's content is the `Settings.LoadOutcome` input.
- Settings sections that are only partly present in the file. A section is present or absent as a whole.
- React/ink rendering, `fetch`, browser opening, the dashboard and proxy servers, and alias setup. The settings model emits these as `Settings.Effect` values.
- `Date` parsing and ISO formatting. Session times are integer milliseconds, with the day difference computed from them. Weekdays are an index.
- Object-key order of the series records, and JavaScript prototype names such as `constructor` used as agent keys.
- The form-decoding direction of the query string. Only encoding is modelled.
- Fractional CPU, memory and disk values. These are whole numbers in the Northflank and Daytona models.
- The constant fields of the Northflank template, such as region, ports and cache sizes.
- The `data` payload of the telemetry events (mode, repoUrl, metadata, status, eventCount and the `session_error` tag). These are copied from the row unchanged and play no part in which events exist, their order or their stamps.
- Sandbox.Resolve: a path naming the working directory itself counts as outside it, a file and a directory of the same name can coexist in `Sandbox.Dir`, symbolic links are not followed, and a relative working directory is read from the root. The engine's directory tree is not modelled.
- Text.Lower: lower-cases the ASCII letters only. JavaScript's `toLowerCase` also maps other Unicode letters (page.tsx:50, 183, 198, 306), so non-ASCII agent names are keyed differently by `Dashboard.InitialBucket`, `Dashboard.Tally` and `Dashboard.AgentColor`.
- Streaming.ExitCodeOf: gives the exact value of the digit run. `parseInt` returns a double, so runs above 2^53 round and very long runs become `Infinity`.
- Telemetry.SortNewestFirst: does not state which order events with equal timestamps keep. The engine's sort stability is not part of the model.
- Telemetry.Insert: states the multiset only; sortedness is proved separately by `Telemetry.InsertSorted`.

## Findings

| source | as written | input that shows it | evidently intended | confidence | as-written member | corrected member |
|---|---|---|---|---|---|---|
| packages/dagger/src/dagger/vibekit-dagger.ts:309-366 | every failure path calls `emit("error", …)`, and an event emitter with no `error` listener throws on that call, so `run` rejects without an end record | an engine that cannot be reached, or a command that fails, on an instance nobody listens to for `error` (as test/local-simple.test.ts:170-191 does) | return the failure as a result with the extracted exit code, as the comment at line 325 says and the tests expect | not executed | Sandbox.RunUnobserved (shown by Sandbox.UnobservedFailureRejects) | Sandbox.Run |

=== FILE: dashboard.dfy ===
/**
 * The analytics dashboard's pure helpers: duration formatting, the 7-day
 * per-agent time series built from recent sessions, chart colours and
 * display names.
 */
module Dashboard {
  import opened Wrappers
  import opened Text

  // ---------------------------------------------------------------------
  // Durations
  // ---------------------------------------------------------------------

  /** The largest unit a duration is shown in, with the components shown. */
  datatype Shown = Hours(h: int, m: int) | Minutes(m: int, s: int) | Seconds(s: int)

  /**
   * `formatDuration(ms)`: whole seconds, minutes and hours, each rounded
   * down; the two largest non-zero units are shown, the smaller of them
   * reduced modulo 60.
   */
  function ShowDuration(ms: int): (r: Shown)
    ensures r.Hours? ==> r.h >= 1 && 0 <= r.m < 60 && r.h * 3600000 + r.m * 60000 <= ms < r.h * 3600000 + (r.m + 1) * 60000
    ensures r.Minutes? ==> 1 <= r.m < 60 && 0 <= r.s < 60 && r.m * 60000 + r.s * 1000 <= ms < r.m * 60000 + (r.s + 1) * 1000
    ensures r.Seconds? ==> r.s < 60 && r.s * 1000 <= ms < (r.s + 1) * 1000
  {
    var seconds := ms / 1000;
    var minutes := seconds / 60;
    var hours := minutes / 60;
    assert seconds * 1000 <= ms < seconds * 1000 + 1000;
    assert minutes * 60 <= seconds < minutes * 60 + 60;
    assert hours * 60 <= minutes < hours * 60 + 60;
    if hours > 0 then Hours(hours, minutes % 60)
    else if minutes > 0 then Minutes(minutes, seconds % 60)
    else Seconds(seconds)
  }

  /** The text of a shown duration, such as `1h 2m`, `3m 4s` or `5s`. */
  function Render(d: Shown): string {
    match d
    case Hours(h, m) => IntToString(h) + "h " + IntToString(m) + "m"
    case Minutes(m, s) => IntToString(m) + "m " + IntToString(s) + "s"
    case Seconds(s) => IntToString(s) + "s"
  }

  function FormatDuration(ms: int): (r: string)
    ensures 2 <= |r|
    ensures r[|r| - 1] == 's' <==> !ShowDuration(ms).Hours?
  {
    Render(ShowDuration(ms))
  }

  /** Durations below an hour keep every whole second; longer ones drop the seconds. */
  lemma DurationExamples()
    ensures ShowDuration(3723000) == Hours(1, 2)
    ensures ShowDuration(125999) == Minutes(2, 5)
    ensures ShowDuration(999) == Seconds(0)
    ensures ShowDuration(-1) == Seconds(-1)
  {
  }

  // ---------------------------------------------------------------------
  // The 7-day time series
  // ---------------------------------------------------------------------

  /** A session as the sessions endpoint returns it (only the fields used here). */
  datatype Session = Session(agentName: string, startMs: int)

  /** A field of a day's record: the day label, or a count. */
  datatype Cell = Label(text: string) | Count(n: int)

  /** One day of the chart: field name to value. */
  type Bucket = map<string, Cell>

  const DayNames: seq<string> := ["Sun", "Mon", "Tue", "Wed", "Thu", "Fri", "Sat"]

  /** The agents every day starts with a zero count for. */
  const DefaultAgents: set<string> := {"claude", "gemini", "codex", "cursor", "grok", "opencode"}

  const DayMs: int := 1000 * 60 * 60 * 24

  /** The recent sessions kept from a fetch: the first ten. */
  function Recent(fetched: seq<Session>): (r: seq<Session>)
    ensures r <= fetched
    ensures |r| == (if |fetched| < 10 then |fetched| else 10)
  {
    if |fetched| <= 10 then fetched else fetched[..10]
  }

  /** Sessions fetched after the first ten never show, and trimming again changes nothing. */
  lemma RecentIgnoresLater(first: seq<Session>, later: seq<Session>)
    requires |first| >= 10
    ensures Recent(first + later) == Recent(first)
    ensures Recent(Recent(first + later)) == Recent(first + later)
  {
    var r := Recent(first + later);
    assert forall i :: 0 <= i < 10 ==> r[i] == (first + later)[i] == first[i];
    assert r == Recent(first);
  }

  /** Whole days between a session's start and now, rounded down. */
  function DaysAgo(todayMs: int, startMs: int): int {
    (todayMs - startMs) / DayMs
  }

  /**
   * The day record a session counts towards, if any: the last of the seven
   * is today, the first six days ago.
   */
  function Slot(todayMs: int, s: Session): (r: Option<nat>)
    ensures r.Some? <==> 0 <= DaysAgo(todayMs, s.startMs) < 7
    ensures r.Some? ==> r.value < 7 && r.value == 6 - DaysAgo(todayMs, s.startMs)
  {
    var d := DaysAgo(todayMs, s.startMs);
    if 0 <= d < 7 then Some(6 - d) else None
  }

  /** The weekday name of the day `back` days before a day with weekday `today`. */
  function DayName(today: nat, back: nat): string
    requires today < 7
  {
    DayNames[(today - back) % 7]
  }

  /** The fields a day starts with: its label, then a zero per agent (the label may be overwritten). */
  function InitialBucket(day: string, breakdown: seq<string>): (b: Bucket)
    ensures b.Keys == {"date"} + DefaultAgents + set a | a in breakdown :: Lower(a)
    ensures forall k :: k in b && k != "date" ==> b[k] == Count(0)
  {
    var agents := DefaultAgents + set a | a in breakdown :: Lower(a);
    map["date" := Label(day)] + map k | k in agents :: Count(0)
  }

  /** The seven day records before any session is counted. */
  function InitialSeries(today: nat, breakdown: seq<string>): (r: seq<Bucket>)
    requires today < 7
    ensures |r| == 7
  {
    seq(7, j requires 0 <= j < 7 => DayRecord(today, breakdown, j))
  }

  /** The record of the `j`-th of the seven days, counting from six days ago. */
  function DayRecord(today: nat, breakdown: seq<string>, j: nat): Bucket
    requires today < 7 && j < 7
  {
    InitialBucket(DayName(today, 6 - j), breakdown)
  }

  /** The seven records run from six days ago to today, each labelled with its weekday. */
  lemma SeriesLabels(today: nat, breakdown: seq<string>, j: nat)
    requires today < 7 && j < 7
    ensures InitialSeries(today, breakdown)[j]["date"].Label? <==> "date" !in set a | a in breakdown :: Lower(a)
    ensures "date" !in (set a | a in breakdown :: Lower(a)) ==>
              InitialSeries(today, breakdown)[j]["date"] == Label(DayNames[(today + j + 1) % 7])
  {
    assert (today - (6 - j)) % 7 == (today + j + 1) % 7;
  }

  /** The numeric value of a field, a non-number counting as 0. */
  function CountOf(c: Cell): int {
    if c.Count? then c.n else 0
  }

  /** Count one session: its agent's field of its day goes up by one, if both exist. */
  function Tally(series: seq<Bucket>, todayMs: int, s: Session): (r: seq<Bucket>)
    requires |series| == 7
    ensures |r| == 7
    ensures forall j :: 0 <= j < 7 ==> r[j].Keys == series[j].Keys
  {
    match Slot(todayMs, s)
    case None => series
    case Some(j) =>
      var key := Lower(s.agentName);
      if key in series[j] then series[j := series[j][key := Count(CountOf(series[j][key]) + 1)]]
      else series
  }

  /** Count the sessions one after another. */
  function TallyAll(series: seq<Bucket>, todayMs: int, sessions: seq<Session>): (r: seq<Bucket>)
    requires |series| == 7
    ensures |r| == 7
    ensures forall j :: 0 <= j < 7 ==> r[j].Keys == series[j].Keys
    decreases |sessions|
  {
    if |sessions| == 0 then series
    else Tally(TallyAll(series, todayMs, sessions[..|sessions| - 1]), todayMs, sessions[|sessions| - 1])
  }

  /** `generateTimeSeriesData`: seven day records counting the given sessions. */
  function TimeSeries(todayMs: int, today: nat, breakdown: seq<string>, sessions: seq<Session>): (r: seq<Bucket>)
    requires today < 7
    ensures |r| == 7
  {
    TallyAll(InitialSeries(today, breakdown), todayMs, sessions)
  }

  /** Reference count: the sessions that fall on day `j` under agent field `key`. */
  function Hits(sessions: seq<Session>, todayMs: int, j: nat, key: string): (n: nat)
    ensures n <= |sessions|
  {
    if |sessions| == 0 then 0
    else
      var last := sessions[|sessions| - 1];
      Hits(sessions[..|sessions| - 1], todayMs, j, key)
      + (if Slot(todayMs, last) == Some(j) && Lower(last.agentName) == key then 1 else 0)
  }

  /**
   * Every field of every day counts exactly the sessions of that day and
   * agent; a field no session reaches keeps its initial value.
   */
  lemma {:induction false} TallyCounts(series: seq<Bucket>, todayMs: int, sessions: seq<Session>, j: nat, key: string)
    requires |series| == 7 && j < 7 && key in series[j]
    requires series[j][key] == Count(0) || series[j][key].Label?
    ensures TallyAll(series, todayMs, sessions)[j][key]
            == if Hits(sessions, todayMs, j, key) == 0 then series[j][key] else Count(Hits(sessions, todayMs, j, key))
    decreases |sessions|
  {
    if |sessions| > 0 {
      var prefix := sessions[..|sessions| - 1];
      TallyCounts(series, todayMs, prefix, j, key);
    }
  }

  /** Whether session `x` counts towards field `f`, a (day, agent key) pair. */
  predicate CountsTowards(todayMs: int, x: Session, f: (nat, string)) {
    Slot(todayMs, x) == Some(f.0) && Lower(x.agentName) == f.1
  }

  /** How many of the fields session `x` counts towards. */
  function Matches(todayMs: int, x: Session, fields: seq<(nat, string)>): nat {
    if |fields| == 0 then 0
    else (if CountsTowards(todayMs, x, fields[0]) then 1 else 0) + Matches(todayMs, x, fields[1..])
  }

  /** The reference counts of several fields, added up. */
  function HitsSum(sessions: seq<Session>, todayMs: int, fields: seq<(nat, string)>): nat {
    if |fields| == 0 then 0
    else Hits(sessions, todayMs, fields[0].0, fields[0].1) + HitsSum(sessions, todayMs, fields[1..])
  }

  predicate Distinct(fields: seq<(nat, string)>) {
    forall a, b :: 0 <= a < b < |fields| ==> fields[a] != fields[b]
  }

  /** A session counts towards no field when it reaches none of them. */
  lemma {:induction false} MatchesNone(todayMs: int, x: Session, fields: seq<(nat, string)>)
    requires forall k :: 0 <= k < |fields| ==> !CountsTowards(todayMs, x, fields[k])
    ensures Matches(todayMs, x, fields) == 0
    decreases |fields|
  {
    if |fields| > 0 {
      MatchesNone(todayMs, x, fields[1..]);
    }
  }

  /** A session has one day and one agent key, so it counts towards at most one of distinct fields. */
  lemma {:induction false} MatchesAtMostOne(todayMs: int, x: Session, fields: seq<(nat, string)>)
    requires Distinct(fields)
    ensures Matches(todayMs, x, fields) <= 1
    decreases |fields|
  {
    if |fields| > 0 {
      var rest := fields[1..];
      if CountsTowards(todayMs, x, fields[0]) {
        forall k | 0 <= k < |rest| ensures !CountsTowards(todayMs, x, rest[k]) {
          assert rest[k] == fields[k + 1] != fields[0];
        }
        MatchesNone(todayMs, x, rest);
      } else {
        MatchesAtMostOne(todayMs, x, rest);
      }
    }
  }

  /** Adding a session adds, to the summed counts, the number of fields it counts towards. */
  lemma {:induction false} HitsSumStep(sessions: seq<Session>, todayMs: int, fields: seq<(nat, string)>)
    requires |sessions| > 0
    ensures HitsSum(sessions, todayMs, fields)
            == HitsSum(sessions[..|sessions| - 1], todayMs, fields) + Matches(todayMs, sessions[|sessions| - 1], fields)
    decreases |fields|
  {
    if |fields| > 0 {
      HitsSumStep(sessions, todayMs, fields[1..]);
    }
  }

  /**
   * Each session counts in at most one field, so the counts of any distinct
   * fields add up to at most the number of sessions.
   */
  lemma {:induction false} HitsTotalBounded(sessions: seq<Session>, todayMs: int, fields: seq<(nat, string)>)
    requires Distinct(fields)
    ensures HitsSum(sessions, todayMs, fields) <= |sessions|
    decreases |sessions|
  {
    if |sessions| == 0 {
      HitsSumEmpty(sessions, todayMs, fields);
    } else {
      HitsSumStep(sessions, todayMs, fields);
      MatchesAtMostOne(todayMs, sessions[|sessions| - 1], fields);
      HitsTotalBounded(sessions[..|sessions| - 1], todayMs, fields);
    }
  }

  /** With no sessions every count is zero. */
  lemma {:induction false} HitsSumEmpty(sessions: seq<Session>, todayMs: int, fields: seq<(nat, string)>)
    requires |sessions| == 0
    ensures HitsSum(sessions, todayMs, fields) == 0
    decreases |fields|
  {
    if |fields| > 0 {
      HitsSumEmpty(sessions, todayMs, fields[1..]);
    }
  }

  /** The same, for the series the dashboard draws. */
  lemma TimeSeriesCounts(todayMs: int, today: nat, breakdown: seq<string>, sessions: seq<Session>, j: nat, key: string)
    requires today < 7 && j < 7
    ensures TimeSeries(todayMs, today, breakdown, sessions)[j].Keys == InitialSeries(today, breakdown)[j].Keys
    ensures key in InitialSeries(today, breakdown)[j] && key != "date" ==>
              TimeSeries(todayMs, today, breakdown, sessions)[j][key] == Count(Hits(sessions, todayMs, j, key))
  {
    var init := InitialSeries(today, breakdown);
    if key in init[j] && key != "date" {
      TallyCounts(init, todayMs, sessions, j, key);
    }
  }

  /**
   * The day label shares the record with the counts: a session whose agent
   * name lower-cases to `date` replaces the label with a count.
   */
  lemma AgentNamedDateReplacesLabel(todayMs: int, today: nat)
    requires today < 7
    ensures TimeSeries(todayMs, today, [], [Session("Date", todayMs)])[6]["date"] == Count(1)
  {
    var sessions := [Session("Date", todayMs)];
    var init := InitialSeries(today, []);
    assert Lower("Date") == "date";
    assert Slot(todayMs, sessions[0]) == Some(6);
    assert sessions[..0] == [];
    TallyCounts(init, todayMs, sessions, 6, "date");
  }

  // ---------------------------------------------------------------------
  // Colours and names
  // ---------------------------------------------------------------------

  const FallbackColors: seq<string> := ["#8884d8", "#82ca9d", "#ffc658", "#ff7c7c", "#8dd1e1", "#d084d0"]

  /** The fixed colour of a well-known agent, by lower-cased name. */
  function FixedColor(key: string): Option<string> {
    if key == "claude" then Some("#ff6b35")
    else if key == "gemini" then Some("#4285f4")
    else if key == "codex" then Some("#6b7280")
    else if key == "cursor" then Some("#374151")
    else if key == "opencode" then Some("#333333")
    else None
  }

  /** `getAgentColor(agent, index)`: the agent's own colour, else a palette colour by position. */
  function AgentColor(agent: string, index: nat): (r: string)
    ensures FixedColor(Lower(agent)).Some? ==> r == FixedColor(Lower(agent)).value
    ensures FixedColor(Lower(agent)).None? ==> r in FallbackColors && r == FallbackColors[index % 6]
  {
    match FixedColor(Lower(agent))
    case Some(c) => c
    case None => FallbackColors[index % |FallbackColors|]
  }

  /** Palette colours repeat every six agents; well-known agents ignore their position. */
  lemma ColorPeriodic(agent: string, index: nat, other: nat)
    ensures AgentColor(agent, index + 6) == AgentColor(agent, index)
    ensures FixedColor(Lower(agent)).Some? ==> AgentColor(agent, index) == AgentColor(agent, other)
  {
    assert (index + 6) % 6 == index % 6;
  }

  /** The tooltip's name for an agent key: two agents are renamed, the rest kept. */
  function DisplayName(key: string): (r: string)
    ensures Lower(key) == "claude" ==> r == "claude-code"
    ensures Lower(key) == "gemini" ==> r == "gemini-cli"
    ensures Lower(key) == "cursor" ==> r == "cursor"
    ensures Lower(key) == "opencode" ==> r == "opencode"
    ensures Lower(key) !in {"claude", "gemini", "cursor", "opencode"} ==> r == key
  {
    var k := Lower(key);
    if k == "claude" then "claude-code"
    else if k == "gemini" then "gemini-cli"
    else if k == "cursor" then "cursor"
    else if k == "opencode" then "opencode"
    else key
  }

  /** Renaming a display name again changes nothing. */
  lemma DisplayNameIdempotent(key: string)
    ensures DisplayName(DisplayName(key)) == DisplayName(key)
  {
    var k := Lower(key);
    if k == "claude" {
      assert Lower("claude-code") == "claude-code";
    } else if k == "gemini" {
      assert Lower("gemini-cli") == "gemini-cli";
    } else if k == "cursor" {
      assert Lower("cursor") == "cursor";
    } else if k == "opencode" {
      assert Lower("opencode") == "opencode";
    }
  }
}

=== FILE: daytona.dfy ===
/**
 * The Daytona installer's command line: the snapshot name and the argument
 * vector passed to `daytona` for each template.
 */
module Daytona {
  import opened Wrappers
  import opened Text

  /** The resource settings of an installation (whole numbers). */
  datatype InstallConfig = InstallConfig(cpu: int, memory: int, disk: int, workspaceId: Option<string>)

  /** `<workspaceId>-<template>` inside a workspace, the bare template otherwise. */
  function SnapshotName(template: string, config: InstallConfig): (r: string)
    ensures Truthy(config.workspaceId) ==> r == config.workspaceId.value + "-" + template
    ensures !Truthy(config.workspaceId) ==> r == template
  {
    if Truthy(config.workspaceId) then config.workspaceId.value + "-" + template else template
  }

  /** The `buildArgs` closure: `snapshots create <name> --cpu c --memory m --disk d --dockerfile f`. */
  function BuildArgs(template: string, config: InstallConfig, tempDockerfile: string): (argv: seq<string>)
    ensures |argv| == 11
    ensures argv[..3] == ["snapshots", "create", SnapshotName(template, config)]
    ensures argv[3] == "--cpu" && argv[5] == "--memory" && argv[7] == "--disk"
    ensures argv[9..] == ["--dockerfile", tempDockerfile]
  {
    var head := ["snapshots", "create", SnapshotName(template, config)];
    var sizes := ["--cpu", IntToString(config.cpu), "--memory", IntToString(config.memory), "--disk", IntToString(config.disk)];
    head + sizes + ["--dockerfile", tempDockerfile]
  }

  /** Decimal text with an optional leading minus, as `Number.prototype.toString` writes integers. */
  function ReadInt(s: string): (r: Option<int>)
  {
    if |s| > 0 && s[0] == '-' then
      (if |s| > 1 && AllDigits(s[1..], 10) then Some(-(ParseNat(s[1..], 10) as int)) else None)
    else if |s| > 0 && AllDigits(s, 10) then Some(ParseNat(s, 10) as int)
    else None
  }

  /** Integers print and read back unchanged. */
  lemma ReadIntToString(i: int)
    ensures ReadInt(IntToString(i)) == Some(i)
  {
    if i < 0 {
      ReadNegative(-i);
    } else {
      ReadNonNegative(i);
    }
  }

  lemma ReadNegative(n: int)
    requires n > 0
    ensures ReadInt(IntToString(-n)) == Some(-n)
  {
    var digits := NatToString(n, 10);
    var s := IntToString(-n);
    assert s == "-" + digits;
    assert s[0] == '-' && |s| > 1;
    assert s[1..] == digits;
    ParseNatToString(n, 10);
  }

  lemma ReadNonNegative(n: nat)
    ensures ReadInt(IntToString(n)) == Some(n)
  {
    var digits := NatToString(n, 10);
    assert IntToString(n) == digits;
    assert DigitValue(digits[0]) < 10;
    assert digits[0] != '-';
    ParseNatToString(n, 10);
  }

  /** What a `snapshots create` command line asks for. */
  datatype Request = Request(snapshot: string, cpu: int, memory: int, disk: int, dockerfile: string)

  /** Read a command line of the shape `BuildArgs` produces. */
  function ParseArgs(argv: seq<string>): Option<Request> {
    if |argv| != 11 || argv[0] != "snapshots" || argv[1] != "create"
       || argv[3] != "--cpu" || argv[5] != "--memory" || argv[7] != "--disk" || argv[9] != "--dockerfile"
    then None
    else match (ReadInt(argv[4]), ReadInt(argv[6]), ReadInt(argv[8]))
      case (Some(c), Some(m), Some(d)) => Some(Request(argv[2], c, m, d, argv[10]))
      case _ => None
  }

  /** The argument vector of one snapshot request, spelled out. */
  function Argv(name: string, cpu: int, memory: int, disk: int, dockerfile: string): seq<string> {
    ["snapshots", "create", name, "--cpu", IntToString(cpu), "--memory", IntToString(memory),
     "--disk", IntToString(disk), "--dockerfile", dockerfile]
  }

  /** Every field of a spelled-out command line reads back. */
  lemma ParseArgv(name: string, cpu: int, memory: int, disk: int, dockerfile: string)
    ensures ParseArgs(Argv(name, cpu, memory, disk, dockerfile)) == Some(Request(name, cpu, memory, disk, dockerfile))
  {
    ReadIntToString(cpu);
    ReadIntToString(memory);
    ReadIntToString(disk);
  }

  /** The command line carries every setting unchanged. */
  lemma BuildArgsRoundTrip(template: string, config: InstallConfig, tempDockerfile: string)
    ensures ParseArgs(BuildArgs(template, config, tempDockerfile))
            == Some(Request(SnapshotName(template, config), config.cpu, config.memory, config.disk, tempDockerfile))
  {
    var name := SnapshotName(template, config);
    assert BuildArgs(template, config, tempDockerfile) == Argv(name, config.cpu, config.memory, config.disk, tempDockerfile);
    ParseArgv(name, config.cpu, config.memory, config.disk, tempDockerfile);
  }
}

=== FILE: images.dfy ===
/**
 * Image resolution for the local container sandbox: which image or
 * Dockerfile an agent type maps to, and the strategy chain that turns those
 * into a base container (registry image, then Dockerfile build, then the
 * generic fallback image), with the instance's environment layered on top.
 */
module Images {
  import opened Wrappers

  /** The generic image used when nothing agent-specific is available. */
  const FallbackImage: string := "ubuntu:24.04"

  /** The publisher account of the project's prebuilt agent images. */
  const DefaultPublisher: string := "superagent-ai"

  /** The registry whose images are named without a registry prefix. */
  const DefaultRegistry: string := "docker.io"

  /** The directory and file-name stem of the agents' Dockerfiles. */
  const DockerfileStem: string := "assets/dockerfiles/Dockerfile."

  /** The agent types that have a Dockerfile and a published image. */
  const KnownAgents: seq<string> := ["claude", "codex", "opencode", "gemini", "grok"]

  predicate IsKnown(agent: Option<string>) {
    agent.Some? && agent.value in KnownAgents
  }

  /** Image repository of a known agent; grok publishes as `vibekit-grok-cli`. */
  function Repository(name: string): string {
    if name == "grok" then "vibekit-grok-cli" else "vibekit-" + name
  }

  /** The user's `.vibekit-config.json`; an unreadable file reads as empty. */
  datatype UserConfig = UserConfig(dockerHubUser: Option<string>, registryImages: map<string, string>)

  const EmptyUserConfig: UserConfig := UserConfig(None, map[])

  /** The provider's construction-time options. */
  datatype LocalConfig = LocalConfig(
    preferRegistryImages: bool,
    dockerHubUser: Option<string>,
    pushImages: bool,
    privateRegistry: Option<string>,
    autoInstall: bool)

  const DefaultLocalConfig: LocalConfig := LocalConfig(false, None, false, None, false)

  /** The image the user configured for this agent type, when it is truthy. */
  predicate HasOverride(agent: Option<string>, config: UserConfig) {
    Truthy(agent) && agent.value in config.registryImages && config.registryImages[agent.value] != ""
  }

  /** Dockerfile to build an agent image from, if the agent type has one. */
  function DockerfilePath(agent: Option<string>): (r: Option<string>)
    ensures r.Some? <==> IsKnown(agent)
    ensures r.Some? ==> |r.value| == |DockerfileStem| + |agent.value|
    ensures r.Some? ==> r.value[..|DockerfileStem|] == DockerfileStem && r.value[|DockerfileStem|..] == agent.value
  {
    if IsKnown(agent) then Some(DockerfileStem + agent.value) else None
  }

  /** The full name of an image published for a known agent. */
  function PublishedImage(prefix: string, publisher: string, name: string): string {
    prefix + publisher + "/" + Repository(name) + ":latest"
  }

  /** Registry image for an agent type: the user's override, else the project's image. */
  function RegistryImage(agent: Option<string>, config: UserConfig): (r: string)
    ensures HasOverride(agent, config) ==> r == config.registryImages[agent.value]
    ensures !HasOverride(agent, config) ==> (r == FallbackImage <==> !IsKnown(agent))
    ensures !HasOverride(agent, config) && IsKnown(agent) ==> DefaultPublisher + "/vibekit-" <= r
  {
    if HasOverride(agent, config) then config.registryImages[agent.value]
    else if IsKnown(agent) then PublishedImage("", DefaultPublisher, agent.value)
    else FallbackImage
  }

  /** The registry part of an image name: none for docker.io, the default when no registry is set. */
  function RegistryPrefix(config: LocalConfig): (p: string)
    ensures p == "" <==> !Truthy(config.privateRegistry) || config.privateRegistry.value == DefaultRegistry
    ensures p != "" ==> p == config.privateRegistry.value + "/"
  {
    var registry := OrElse(config.privateRegistry, DefaultRegistry);
    if registry == DefaultRegistry then "" else registry + "/"
  }

  /** Registry image under a configurable registry and publisher account. */
  function ConfigurableRegistryImage(agent: Option<string>, config: LocalConfig): (r: string)
    ensures r == FallbackImage <==> !IsKnown(agent)
    ensures IsKnown(agent) && Truthy(config.privateRegistry) && config.privateRegistry.value != DefaultRegistry ==>
              config.privateRegistry.value + "/" <= r
    ensures IsKnown(agent) ==>
              r == RegistryPrefix(config) + OrElse(config.dockerHubUser, DefaultPublisher) + "/" + Repository(agent.value) + ":latest"
  {
    var user := OrElse(config.dockerHubUser, DefaultPublisher);
    if IsKnown(agent) then PublishedImage(RegistryPrefix(config), user, agent.value) else FallbackImage
  }

  /** The literal names the source spells out for each agent type. */
  lemma DockerfileNames()
    ensures DockerfilePath(Some("claude")) == Some("assets/dockerfiles/Dockerfile.claude")
    ensures DockerfilePath(Some("grok")) == Some("assets/dockerfiles/Dockerfile.grok")
    ensures DockerfilePath(Some("unknown-xyz")) == None
  {
    assert KnownAgents[0] == "claude" && KnownAgents[4] == "grok";
    assert IsKnown(Some("claude")) && IsKnown(Some("grok"));
    assert DockerfileStem + "claude" == "assets/dockerfiles/Dockerfile.claude";
    assert DockerfileStem + "grok" == "assets/dockerfiles/Dockerfile.grok";
  }

  /** The codex, opencode and gemini Dockerfiles. */
  lemma MoreDockerfileNames()
    ensures DockerfilePath(Some("codex")) == Some("assets/dockerfiles/Dockerfile.codex")
    ensures DockerfilePath(Some("opencode")) == Some("assets/dockerfiles/Dockerfile.opencode")
    ensures DockerfilePath(Some("gemini")) == Some("assets/dockerfiles/Dockerfile.gemini")
  {
    assert KnownAgents[1] == "codex" && KnownAgents[2] == "opencode" && KnownAgents[3] == "gemini";
    assert DockerfileStem + "codex" == "assets/dockerfiles/Dockerfile.codex";
    assert DockerfileStem + "opencode" == "assets/dockerfiles/Dockerfile.opencode";
    assert DockerfileStem + "gemini" == "assets/dockerfiles/Dockerfile.gemini";
  }

  /** The literal image names the source spells out for each agent type. */
  lemma RegistryNames()
    ensures RegistryImage(Some("claude"), EmptyUserConfig) == "superagent-ai/vibekit-claude:latest"
    ensures RegistryImage(Some("codex"), EmptyUserConfig) == "superagent-ai/vibekit-codex:latest"
  {
    assert KnownAgents[0] == "claude" && KnownAgents[1] == "codex";
  }

  /** The published names of the gemini and opencode images. */
  lemma MoreRegistryNames()
    ensures RegistryImage(Some("gemini"), EmptyUserConfig) == "superagent-ai/vibekit-gemini:latest"
    ensures RegistryImage(Some("opencode"), EmptyUserConfig) == "superagent-ai/vibekit-opencode:latest"
  {
    assert KnownAgents[2] == "opencode" && KnownAgents[3] == "gemini";
  }

  /** Grok's published repository carries a `-cli` suffix. */
  lemma GrokRegistryName()
    ensures RegistryImage(Some("grok"), EmptyUserConfig) == "superagent-ai/vibekit-grok-cli:latest"
  {
    assert KnownAgents[4] == "grok";
  }

  /** Unknown and absent agent types fall back to the generic image. */
  lemma FallbackNames()
    ensures RegistryImage(Some("unknown-xyz"), EmptyUserConfig) == FallbackImage
    ensures RegistryImage(None, EmptyUserConfig) == FallbackImage
  {
    assert "unknown-xyz" !in KnownAgents;
  }

  /** A private registry and a custom publisher both appear in the name. */
  lemma PrivateRegistryName()
    ensures ConfigurableRegistryImage(Some("grok"), LocalConfig(false, Some("me"), false, Some("ghcr.io"), false))
            == "ghcr.io/me/vibekit-grok-cli:latest"
  {
    assert "grok" == KnownAgents[4];
    assert "ghcr.io" != DefaultRegistry;
    assert PublishedImage("ghcr.io/", "me", "grok") == "ghcr.io/" + "me" + "/" + "vibekit-grok-cli" + ":latest";
  }

  /**
   * On docker.io, whether named or left unset, a known agent's name is its
   * publisher, repository and tag alone.
   */
  lemma DockerHubNames(agent: Option<string>, config: LocalConfig)
    requires IsKnown(agent) && (config.privateRegistry.None? || config.privateRegistry == Some(DefaultRegistry))
    ensures ConfigurableRegistryImage(agent, config)
            == OrElse(config.dockerHubUser, DefaultPublisher) + "/" + Repository(agent.value) + ":latest"
  {
  }

  /** Empty registry and publisher strings are falsy, so they act as if nothing were configured. */
  lemma EmptyConfigStrings(agent: Option<string>, config: LocalConfig)
    requires config.dockerHubUser.Some? && config.dockerHubUser.value == ""
    requires config.privateRegistry.Some? && config.privateRegistry.value == ""
    ensures ConfigurableRegistryImage(agent, config) == ConfigurableRegistryImage(agent, DefaultLocalConfig)
  {
  }

  /** With no registry, no publisher and no override configured, the two image helpers agree. */
  lemma ConfigurableMatchesDefault(agent: Option<string>)
    ensures ConfigurableRegistryImage(agent, DefaultLocalConfig) == RegistryImage(agent, EmptyUserConfig)
  {
  }

  /** Tag for a locally built image. */
  function ImageTag(agent: Option<string>): (r: string)
    ensures Truthy(agent) ==> r == "vibekit-" + agent.value + ":latest"
    ensures !Truthy(agent) ==> r == "vibekit-default:latest"
  {
    "vibekit-" + OrElse(agent, "default") + ":latest"
  }

  /** Where a base container's image came from. */
  datatype ImageSource = Registry(image: string) | Build(dockerfile: string) | Pull(image: string)

  /** A base container: its image and the environment variables set on it, in order. */
  datatype Container = Container(source: ImageSource, env: seq<(string, string)>)

  /** Whether the container engine accepted an image strategy. */
  datatype Load = Accepted | Refused(reason: string)

  /** The trace of strategies tried, and the container or the last failure. */
  datatype Creation = Creation(attempts: seq<ImageSource>, outcome: Result<Container>)

  /** The strategy tried first: registry for a real agent image, else Dockerfile, else the fallback. */
  function PrimarySource(agent: Option<string>, dockerfile: Option<string>, registryImage: string, fallback: string): ImageSource {
    if Truthy(agent) && registryImage != FallbackImage then Registry(registryImage)
    else if dockerfile.Some? then Build(dockerfile.value)
    else Pull(fallback)
  }

  /** The strategies tried after the primary one failed. */
  function Retries(dockerfile: Option<string>, fallback: string): seq<ImageSource> {
    if dockerfile.Some? then [Build(dockerfile.value), Pull(fallback)] else [Pull(fallback)]
  }

  /** Attach the environment variables, one `withEnvVariable` per entry. */
  function WithEnv(source: ImageSource, envs: seq<(string, string)>): Container {
    Container(source, envs)
  }

  /**
   * `createBaseContainer`: try the primary strategy; on failure retry the
   * Dockerfile build (if any), then the fallback image; an error of the last
   * strategy tried escapes.
   */
  function CreateBase(
    agent: Option<string>, dockerfile: Option<string>, fallback: string,
    envs: seq<(string, string)>, config: UserConfig, accepts: ImageSource -> Load): (r: Creation)
    ensures 1 <= |r.attempts| <= 3
    ensures r.attempts[0] == PrimarySource(agent, dockerfile, RegistryImage(agent, config), fallback)
    ensures r.attempts[1..] <= Retries(dockerfile, fallback)
    ensures forall i :: 0 <= i < |r.attempts| - 1 ==> accepts(r.attempts[i]).Refused?
    ensures var last := r.attempts[|r.attempts| - 1];
            match r.outcome
            case Success(c) => accepts(last).Accepted? && c == Container(last, envs)
            case Failure(m) => accepts(last) == Refused(m) && |r.attempts| == 1 + |Retries(dockerfile, fallback)|
  {
    var primary := PrimarySource(agent, dockerfile, RegistryImage(agent, config), fallback);
    match accepts(primary)
    case Accepted => Creation([primary], Success(WithEnv(primary, envs)))
    case Refused(_) =>
      if dockerfile.Some? then
        var build := Build(dockerfile.value);
        match accepts(build)
        case Accepted => Creation([primary, build], Success(WithEnv(build, envs)))
        case Refused(_) =>
          match accepts(Pull(fallback))
          case Accepted => Creation([primary, build, Pull(fallback)], Success(WithEnv(Pull(fallback), envs)))
          case Refused(m) => Creation([primary, build, Pull(fallback)], Failure(m))
      else
        match accepts(Pull(fallback))
        case Accepted => Creation([primary, Pull(fallback)], Success(WithEnv(Pull(fallback), envs)))
        case Refused(m) => Creation([primary, Pull(fallback)], Failure(m))
  }

  /** Base-container creation always ends in a container when the fallback image loads. */
  lemma FallbackGuaranteesContainer(
    agent: Option<string>, dockerfile: Option<string>, fallback: string,
    envs: seq<(string, string)>, config: UserConfig, accepts: ImageSource -> Load)
    requires accepts(Pull(fallback)).Accepted?
    ensures CreateBase(agent, dockerfile, fallback, envs, config, accepts).outcome.Success?
  {
  }

  /** A known agent without an override starts from its published registry image. */
  lemma KnownAgentTriesRegistryFirst(agent: Option<string>, dockerfile: Option<string>, fallback: string)
    requires IsKnown(agent)
    ensures PrimarySource(agent, dockerfile, RegistryImage(agent, EmptyUserConfig), fallback)
            == Registry(DefaultPublisher + "/" + Repository(agent.value) + ":latest")
  {
  }

  /** An unknown or absent agent type never tries a registry image. */
  lemma UnknownAgentSkipsRegistry(agent: Option<string>, dockerfile: Option<string>, fallback: string)
    requires !IsKnown(agent)
    ensures !PrimarySource(agent, dockerfile, RegistryImage(agent, EmptyUserConfig), fallback).Registry?
  {
  }
}

=== FILE: lifecycle.dfy ===
/**
 * What a sequence of operations on one sandbox instance guarantees: commands
 * see the working directory earlier commands and writes left behind, a
 * failed command's snapshot fails again, `kill` leaves the instance unusable
 * but initialised, and the base container is created at most once.
 */
module Lifecycle {
  import opened Wrappers
  import opened Images
  import opened Streaming
  import opened Sandbox

  /** Initialised, holding a base container, and the engine is reachable. */
  predicate Ready(s: Instance, h: Host) {
    s.init.Initialized? && s.base.Some? && h.link.Connected?
  }

  /** The working directory the next command or read would see. */
  function Visible(s: Instance, h: Host): (r: Result<Dir>)
    requires s.base.Some?
    ensures s.snapshot.None? ==> r == h.mkdir(s.base.value, s.workdir)
  {
    Materialize(h, s.workdir, Restore(s, s.base.value))
  }

  // ---------------------------------------------------------------------
  // Persistence across commands
  // ---------------------------------------------------------------------

  /**
   * A foreground command runs in the directory the previous operations left,
   * and what it leaves (or the error it raises) is what the next one sees.
   */
  lemma CommandSeesPreviousWorkspace(s: Instance, h: Host, command: string, clock: Clock, d: Dir)
    requires Ready(s, h) && Visible(s, h) == Success(d)
    ensures var r := Run(s, h, command, false, clock);
            && r.after.base == s.base && r.after.init == s.init
            && match h.exec(s.base.value, d, command, false)
               case Success(c) =>
                 && r.answer == Returned(ExecResult(0, c.stdout, c.stderr))
                 && r.events == Framed(command, r.answer.value, SuccessEvents(c.stdout, c.stderr), clock)
                 && Visible(r.after, h) == Success(c.workdir)
               case Failure(m) =>
                 && r.answer == Returned(FailureResult(m))
                 && r.events == [Update(StartRecord(command, clock.started)), Error(m),
                                 Update(EndRecord(command, ExitCodeOf(m), clock.ended))]
                 && Visible(r.after, h) == Failure(m)
  {
    var b := s.base.value;
    var r := Run(s, h, command, false, clock);
    assert EnsureInitialized(s, h).0 == s;
    assert r.after.snapshot == Some(Ran(b, Restore(s, b), command, false));
  }

  /**
   * Every run on a ready instance, foreground or background and whatever its
   * outcome, replaces the snapshot with the command applied to the old one.
   */
  lemma RunReplacesSnapshot(s: Instance, h: Host, command: string, background: bool, clock: Clock)
    requires Ready(s, h)
    ensures Run(s, h, command, background, clock).after
            == s.(snapshot := Some(Ran(s.base.value, Restore(s, s.base.value), command, background)))
  {
    assert EnsureInitialized(s, h).0 == s;
  }

  /**
   * Once the snapshot fails to evaluate, every later foreground command
   * reports that same failure and keeps the snapshot failing, and a read of
   * any path throws it.
   */
  lemma PoisonedWorkspaceFailsAgain(s: Instance, h: Host, command: string, path: string, clock: Clock, m: string)
    requires Ready(s, h) && Visible(s, h) == Failure(m)
    ensures var r := Run(s, h, command, false, clock);
            && r.answer == Returned(FailureResult(m))
            && r.events == [Update(StartRecord(command, clock.started)), Error(m),
                            Update(EndRecord(command, ExitCodeOf(m), clock.ended))]
            && Visible(r.after, h) == Failure(m)
    ensures ReadFile(s, h, path).answer == Thrown(m)
  {
    var b := s.base.value;
    var r := Run(s, h, command, false, clock);
    assert EnsureInitialized(s, h).0 == s;
    assert r.after.snapshot == Some(Ran(b, Restore(s, b), command, false));
  }

  /** A command that fails poisons the snapshot for the command after it. */
  lemma FailedCommandPoisonsNext(s: Instance, h: Host, first: string, second: string, k1: Clock, k2: Clock, d: Dir, m: string)
    requires Ready(s, h) && Visible(s, h) == Success(d)
    requires h.exec(s.base.value, d, first, false) == Failure(m)
    ensures Run(Run(s, h, first, false, k1).after, h, second, false, k2).answer == Returned(FailureResult(m))
  {
    CommandSeesPreviousWorkspace(s, h, first, k1, d);
    var r1 := Run(s, h, first, false, k1);
    PoisonedWorkspaceFailsAgain(r1.after, h, second, "", k2, m);
  }

  /** Two successful commands in a row: the second runs in the first one's directory. */
  lemma SecondCommandSeesFirst(s: Instance, h: Host, first: string, second: string, k1: Clock, k2: Clock, d: Dir, c: Captured)
    requires Ready(s, h) && Visible(s, h) == Success(d)
    requires h.exec(s.base.value, d, first, false) == Success(c)
    ensures var r2 := Run(Run(s, h, first, false, k1).after, h, second, false, k2);
            match h.exec(s.base.value, c.workdir, second, false)
            case Success(c2) => r2.answer == Returned(ExecResult(0, c2.stdout, c2.stderr))
            case Failure(m) => r2.answer == Returned(FailureResult(m))
  {
    CommandSeesPreviousWorkspace(s, h, first, k1, d);
    var r1 := Run(s, h, first, false, k1);
    CommandSeesPreviousWorkspace(r1.after, h, second, k2, c.workdir);
  }

  /**
   * A background command returns at once without consulting the engine's
   * execution, and still becomes part of the snapshot, run privileged.
   */
  lemma BackgroundReturnsAtOnce(s: Instance, h: Host, command: string, clock: Clock)
    requires Ready(s, h)
    ensures var r := Run(s, h, command, true, clock);
            && r.answer == Returned(ExecResult(0, "Background process started: " + command, ""))
            && r.events == [Update(StartRecord(command, clock.started)), Update(EndRecord(command, 0, clock.ended))]
            && r.after.snapshot == Some(Ran(s.base.value, Restore(s, s.base.value), command, true))
    ensures forall e :: Run(s, h.(exec := e), command, true, clock) == Run(s, h, command, true, clock)
  {
    assert EnsureInitialized(s, h).0 == s;
    forall e ensures Run(s, h.(exec := e), command, true, clock) == Run(s, h, command, true, clock) {
      assert EnsureInitialized(s, h.(exec := e)).0 == s;
    }
  }

  /** A failure whose text reports `exit code 0` is returned with exit code 0. */
  lemma FailureCanReportZero(s: Instance, h: Host, command: string, clock: Clock, d: Dir)
    requires Ready(s, h) && Visible(s, h) == Success(d)
    requires h.exec(s.base.value, d, command, false) == Failure("exit code 0")
    ensures Run(s, h, command, false, clock).answer == Returned(ExecResult(0, "", "exit code 0"))
  {
    CommandSeesPreviousWorkspace(s, h, command, clock, d);
    ExitCodeExamples();
  }

  /**
   * Without an `error` listener even a successful command rejects once it
   * prints a non-blank stderr line, after delivering its stdout lines.
   */
  lemma UnobservedStderrRejects(s: Instance, h: Host, command: string, clock: Clock, d: Dir, c: Captured)
    requires Ready(s, h) && Visible(s, h) == Success(d)
    requires h.exec(s.base.value, d, command, false) == Success(c)
    requires |OutputLines(c.stderr)| > 0
    ensures var r := RunUnobserved(s, h, command, false, clock);
            && r.answer == Thrown(UnhandledError)
            && |r.events| == 1 + |OutputLines(c.stdout)|
    ensures Run(s, h, command, false, clock).answer == Returned(ExecResult(0, c.stdout, c.stderr))
  {
    CommandSeesPreviousWorkspace(s, h, command, clock, d);
    assert EnsureInitialized(s, h).0 == s;
    var middle := SuccessEvents(c.stdout, c.stderr);
    var n := |OutputLines(c.stdout)|;
    assert c.stderr != "" by {
      OutputLinesOfEmpty();
    }
    assert middle[n].Error?;
    forall i | 0 <= i < n ensures !middle[i].Error? {
      assert middle[i] == Update(Line(OutputLines(c.stdout)[i]));
    }
    assert |UntilError(middle)| == n;
  }

  // ---------------------------------------------------------------------
  // Files
  // ---------------------------------------------------------------------

  /** A file written inside the working directory reads back with its contents. */
  lemma WriteThenRead(s: Instance, h: Host, path: string, content: string, d: Dir)
    requires Ready(s, h) && Visible(s, h) == Success(d)
    requires Resolve(s.workdir, path).Some?
    ensures var w := WriteFile(s, h, path, content);
            w.answer == Returned(()) && ReadFile(w.after, h, path).answer == Returned(content)
  {
    var w := WriteFile(s, h, path, content);
    assert EnsureInitialized(s, h).0 == s;
    assert Visible(w.after, h) == Success(PutFile(d, s.workdir, path, content));
  }

  /** Two spellings the engine resolves to the same file are the same file: `./a` written reads back as `a`. */
  lemma WriteThenReadAlias(s: Instance, h: Host, path: string, alias: string, content: string, d: Dir)
    requires Ready(s, h) && Visible(s, h) == Success(d)
    requires Resolve(s.workdir, path).Some? && Resolve(s.workdir, alias) == Resolve(s.workdir, path)
    ensures ReadFile(WriteFile(s, h, path, content).after, h, alias).answer == Returned(content)
  {
    var w := WriteFile(s, h, path, content);
    assert EnsureInitialized(s, h).0 == s;
    assert Visible(w.after, h) == Success(PutFile(d, s.workdir, path, content));
  }

  /** A write leaves every other file of the working directory as it was. */
  lemma WriteLeavesOtherFiles(s: Instance, h: Host, path: string, content: string, other: string, d: Dir)
    requires Ready(s, h) && Visible(s, h) == Success(d)
    requires Resolve(s.workdir, other).Some?
    requires Resolve(s.workdir, path) != Resolve(s.workdir, other)
    ensures ReadFile(WriteFile(s, h, path, content).after, h, other).answer == ReadFile(s, h, other).answer
  {
    var w := WriteFile(s, h, path, content);
    assert EnsureInitialized(s, h).0 == s;
    assert Visible(w.after, h) == Success(PutFile(d, s.workdir, path, content));
  }

  /**
   * Only the working directory is kept between operations: a file written
   * outside it is gone by the next read.
   */
  lemma WriteOutsideWorkdirIsLost(s: Instance, h: Host, path: string, content: string, d: Dir)
    requires Ready(s, h) && Visible(s, h) == Success(d)
    requires Resolve(s.workdir, path).None?
    ensures ReadFile(WriteFile(s, h, path, content).after, h, path).answer == ReadFile(s, h, path).answer
  {
    var w := WriteFile(s, h, path, content);
    assert EnsureInitialized(s, h).0 == s;
    assert Visible(w.after, h) == Success(d);
  }

  /** Reading changes nothing: the same read repeated gives the same answer. */
  lemma ReadIsRepeatable(s: Instance, h: Host, path: string)
    requires !s.init.Uninitialized?
    ensures ReadFile(s, h, path).after == s
    ensures ReadFile(ReadFile(s, h, path).after, h, path) == ReadFile(s, h, path)
  {
  }

  // ---------------------------------------------------------------------
  // Kill and initialisation
  // ---------------------------------------------------------------------

  /** Killing twice is killing once. */
  lemma KillIdempotent(s: Instance)
    ensures Kill(Kill(s)) == Kill(s)
  {
  }

  /**
   * After `kill` an initialised instance is not initialised again: a command
   * returns the "not initialized" failure with exit code 1, and file
   * operations throw it.
   */
  lemma KilledInstanceRefusesWork(s: Instance, h: Host, command: string, background: bool, clock: Clock, path: string, content: string)
    requires s.init.Initialized? && h.link.Connected?
    ensures var r := Run(Kill(s), h, command, background, clock);
            && r.answer == Returned(ExecResult(1, "", NotInitialized))
            && r.events == [Update(StartRecord(command, clock.started)), Error(NotInitialized),
                            Update(EndRecord(command, 1, clock.ended))]
            && r.after == Kill(s)
    ensures ReadFile(Kill(s), h, path).answer == Thrown(NotInitialized)
    ensures WriteFile(Kill(s), h, path, content).answer == Thrown(NotInitialized)
  {
    NoPhraseMeansOne(NotInitialized);
    assert EnsureInitialized(Kill(s), h).0 == Kill(s);
  }

  /** An instance killed before its first use still initialises on that use. */
  lemma KillBeforeFirstUse(s: Instance, h: Host, command: string, background: bool, clock: Clock)
    requires s.init.Uninitialized? && h.link.Connected?
    requires CreateBase(s.agent, s.dockerfile, s.fallbackImage, s.envs, h.config, h.accepts).outcome.Success?
    ensures var r := Run(Kill(s), h, command, background, clock);
            r.after.init.Initialized? && r.after.base.Some? && r.answer.Returned?
  {
  }

  /** A failed initialisation is remembered: every later operation throws it, changing nothing. */
  lemma InitFailureIsSticky(s: Instance, h: Host, command: string, background: bool, clock: Clock, path: string, content: string)
    requires s.init.InitFailed?
    ensures Run(s, h, command, background, clock) == Step(s, Thrown(s.init.reason), [])
    ensures ReadFile(s, h, path) == Step(s, Thrown(s.init.reason), [])
    ensures WriteFile(s, h, path, content) == Step(s, Thrown(s.init.reason), [])
  {
  }

  // ---------------------------------------------------------------------
  // Sequences of operations
  // ---------------------------------------------------------------------

  datatype Op =
    | RunOp(command: string, background: bool, clock: Clock)
    | ReadOp(path: string)
    | WriteOp(path: string, content: string)
    | KillOp
    | PauseOp

  /** The instance after one operation, under the engine `h`. */
  function Apply(s: Instance, h: Host, op: Op): (r: Instance)
    ensures !s.init.Uninitialized? ==> r.init == s.init
    ensures s.init.Initialized? ==> r.base == s.base || r.base.None?
  {
    match op
    case RunOp(command, background, clock) => Run(s, h, command, background, clock).after
    case ReadOp(path) => ReadFile(s, h, path).after
    case WriteOp(path, content) => WriteFile(s, h, path, content).after
    case KillOp => Kill(s)
    case PauseOp => Pause(s)
  }

  /** The operation awaits `ensureInitialized` while no initialisation has started. */
  predicate StartsInit(s: Instance, op: Op) {
    s.init.Uninitialized? && !op.KillOp? && !op.PauseOp?
  }

  /** Apply each operation in turn, each under its own engine state. */
  function Replay(s: Instance, steps: seq<(Host, Op)>): Instance
    decreases |steps|
  {
    if |steps| == 0 then s else Replay(Apply(s, steps[0].0, steps[0].1), steps[1..])
  }

  /** How many operations of the sequence start a base-container creation. */
  function InitAttempts(s: Instance, steps: seq<(Host, Op)>): nat
    decreases |steps|
  {
    if |steps| == 0 then 0
    else (if StartsInit(s, steps[0].1) then 1 else 0) + InitAttempts(Apply(s, steps[0].0, steps[0].1), steps[1..])
  }

  /** The base container is created at most once over the instance's whole life. */
  lemma {:induction false} InitAtMostOnce(s: Instance, steps: seq<(Host, Op)>)
    ensures InitAttempts(s, steps) <= (if s.init.Uninitialized? then 1 else 0)
    decreases |steps|
  {
    if |steps| > 0 {
      var next := Apply(s, steps[0].0, steps[0].1);
      InitAtMostOnce(next, steps[1..]);
      if StartsInit(s, steps[0].1) {
        assert !next.init.Uninitialized?;
      }
    }
  }

  /**
   * Once settled, the initialisation outcome never changes, and the base
   * container is never replaced, only dropped by `kill`.
   */
  lemma {:induction false} SettledInitPersists(s: Instance, steps: seq<(Host, Op)>)
    requires !s.init.Uninitialized?
    ensures Replay(s, steps).init == s.init
    ensures s.init.Initialized? ==> Replay(s, steps).base == s.base || Replay(s, steps).base.None?
    decreases |steps|
  {
    if |steps| > 0 {
      var next := Apply(s, steps[0].0, steps[0].1);
      SettledInitPersists(next, steps[1..]);
    }
  }
}

=== FILE: northflank.dfy ===
/**
 * The Northflank installer's computed template fields: the deployment plan
 * chosen from the requested CPU and memory, and the fields derived from the
 * template name and disk size.
 */
module Northflank {

  /** The deployment plans, smallest first. */
  datatype Plan = Compute50 | Compute100 | Compute200 | Compute400

  function PlanName(p: Plan): string {
    match p
    case Compute50 => "nf-compute-50"
    case Compute100 => "nf-compute-100"
    case Compute200 => "nf-compute-200"
    case Compute400 => "nf-compute-400"
  }

  function Rank(p: Plan): nat {
    match p
    case Compute50 => 0
    case Compute100 => 1
    case Compute200 => 2
    case Compute400 => 3
  }

  /** The largest request a plan is chosen for; the largest plan takes any request. */
  predicate Fits(p: Plan, cpu: int, memory: int) {
    match p
    case Compute50 => cpu <= 1 && memory <= 1024
    case Compute100 => cpu <= 2 && memory <= 2048
    case Compute200 => cpu <= 4 && memory <= 4096
    case Compute400 => true
  }

  /** `mapToNorthflankPlan(cpu, memory)`: the smallest plan the request fits. */
  function PlanFor(cpu: int, memory: int): (p: Plan)
    ensures Fits(p, cpu, memory)
    ensures forall q: Plan :: Rank(q) < Rank(p) ==> !Fits(q, cpu, memory)
  {
    if cpu <= 1 && memory <= 1024 then Compute50
    else if cpu <= 2 && memory <= 2048 then Compute100
    else if cpu <= 4 && memory <= 4096 then Compute200
    else Compute400
  }

  /** A larger plan fits every request a smaller one fits. */
  lemma FitsUpward(p: Plan, q: Plan, cpu: int, memory: int)
    requires Rank(p) <= Rank(q) && Fits(p, cpu, memory)
    ensures Fits(q, cpu, memory)
  {
  }

  /** Asking for more CPU or memory never yields a smaller plan. */
  lemma PlanMonotone(cpu: int, memory: int, cpu2: int, memory2: int)
    requires cpu <= cpu2 && memory <= memory2
    ensures Rank(PlanFor(cpu, memory)) <= Rank(PlanFor(cpu2, memory2))
  {
    var p := PlanFor(cpu, memory);
    var q := PlanFor(cpu2, memory2);
    if Rank(q) < Rank(p) {
      assert Fits(q, cpu, memory);
    }
  }

  /** Exactly the documented thresholds, both ways. */
  lemma PlanThresholds(cpu: int, memory: int)
    ensures PlanFor(cpu, memory) == Compute50 <==> cpu <= 1 && memory <= 1024
    ensures PlanFor(cpu, memory) == Compute400 <==> cpu > 4 || memory > 4096
    ensures PlanFor(cpu, memory) == Compute100 ==> cpu <= 2 && memory <= 2048 && (cpu > 1 || memory > 1024)
  {
  }

  /** The template fields computed from the inputs. */
  datatype Template = Template(
    name: string,
    projectName: string,
    serviceName: string,
    deploymentPlan: string,
    buildPlan: string,
    storageSize: int,
    dockerFilePath: string)

  const NameSuffix: string := "-vibekit"
  const ProjectPrefix: string := "VibeKit-"
  const ServiceSuffix: string := "-env"
  const DockerfilePrefix: string := "/images/Dockerfile."

  /** `generateNorthflankTemplate(templateName, {cpu, memory, disk})`. */
  function GenerateTemplate(templateName: string, cpu: int, memory: int, disk: int): (t: Template)
    ensures t.deploymentPlan == PlanName(PlanFor(cpu, memory))
    ensures t.storageSize / 1024 == disk && t.storageSize % 1024 == 0
    ensures |t.name| == |templateName| + |NameSuffix|
    ensures t.name[..|templateName|] == templateName && t.name[|templateName|..] == NameSuffix
    ensures |t.projectName| == |ProjectPrefix| + |templateName|
    ensures t.projectName[..|ProjectPrefix|] == ProjectPrefix && t.projectName[|ProjectPrefix|..] == templateName
    ensures |t.serviceName| == |templateName| + |ServiceSuffix|
    ensures t.serviceName[..|templateName|] == templateName && t.serviceName[|templateName|..] == ServiceSuffix
    ensures t.buildPlan == PlanName(Compute400) + "-16"
    ensures |t.dockerFilePath| == |DockerfilePrefix| + |templateName|
    ensures t.dockerFilePath[..|DockerfilePrefix|] == DockerfilePrefix
    ensures t.dockerFilePath[|DockerfilePrefix|..] == templateName
  {
    Template(
      templateName + NameSuffix,
      ProjectPrefix + templateName,
      templateName + ServiceSuffix,
      PlanName(PlanFor(cpu, memory)),
      "nf-compute-400-16",
      disk * 1024,
      DockerfilePrefix + templateName)
  }

  /** The template name is recovered from the generated name by dropping the suffix. */
  function TemplateNameOf(name: string): string
    requires |name| >= |NameSuffix|
  {
    name[..|name| - |NameSuffix|]
  }

  lemma TemplateNameRoundTrip(templateName: string, cpu: int, memory: int, disk: int)
    ensures TemplateNameOf(GenerateTemplate(templateName, cpu, memory, disk).name) == templateName
  {
  }

  /** Plan names differ, so the plan field identifies the plan. */
  lemma PlanNamesDistinct(p: Plan, q: Plan)
    requires PlanName(p) == PlanName(q)
    ensures p == q
  {
  }
}

=== FILE: paths.dfy ===
/**
 * Path resolution as the container engine performs it for `file(path)` and
 * `withNewFile(path, ...)`: a path that does not start with "/" is taken
 * relative to the container's working directory; then empty and "."
 * segments are dropped and ".." removes the segment before it (at the root
 * it stays at the root).
 */
module Paths {
  import opened Text

  /** A resolved location: the names from the root down. */
  type Segments = seq<string>

  /** A segment that names a directory entry. */
  predicate IsName(s: string) {
    s != "" && s != "." && s != ".."
  }

  predicate Canonical(p: Segments) {
    forall i :: 0 <= i < |p| ==> IsName(p[i])
  }

  /** Follow the segments `parts` from the directory `at`. */
  function Walk(at: Segments, parts: seq<string>): (r: Segments)
    requires Canonical(at)
    ensures Canonical(r)
    decreases |parts|
  {
    if |parts| == 0 then at
    else if parts[0] == "" || parts[0] == "." then Walk(at, parts[1..])
    else if parts[0] == ".." then Walk(if |at| == 0 then at else at[..|at| - 1], parts[1..])
    else Walk(at + [parts[0]], parts[1..])
  }

  /** The location a path names when read from the root. */
  function Absolute(path: string): (r: Segments)
    ensures Canonical(r)
  {
    Walk([], Split(path, '/'))
  }

  predicate IsAbsolute(path: string) {
    |path| > 0 && path[0] == '/'
  }

  /** The location `path` names inside a container whose working directory is `workdir`. */
  function Locate(workdir: string, path: string): (r: Segments)
    ensures Canonical(r)
    ensures IsAbsolute(path) ==> r == Absolute(path)
    ensures !IsAbsolute(path) ==> r == Walk(Absolute(workdir), Split(path, '/'))
  {
    if IsAbsolute(path) then Absolute(path) else Walk(Absolute(workdir), Split(path, '/'))
  }

  // ---------------------------------------------------------------------
  // Facts about splitting and walking
  // ---------------------------------------------------------------------

  /** A separator splits the text into the pieces of either side. */
  lemma {:induction false} SplitAround(a: string, b: string, sep: char)
    ensures Split(a + [sep] + b, sep) == Split(a, sep) + Split(b, sep)
  {
    var s := a + [sep] + b;
    if |a| == 0 {
      assert s == [sep] + b;
      assert s[1..] == b;
    } else {
      assert s[0] == a[0];
      assert s[1..] == a[1..] + [sep] + b;
      SplitAround(a[1..], b, sep);
    }
  }

  /** Walking two runs of segments walks the first, then the second. */
  lemma {:induction false} WalkAppend(at: Segments, xs: seq<string>, ys: seq<string>)
    requires Canonical(at)
    ensures Walk(at, xs + ys) == Walk(Walk(at, xs), ys)
    decreases |xs|
  {
    if |xs| == 0 {
      assert xs + ys == ys;
    } else {
      assert (xs + ys)[0] == xs[0];
      assert (xs + ys)[1..] == xs[1..] + ys;
      var next := if xs[0] == "" || xs[0] == "." then at
                  else if xs[0] == ".." then (if |at| == 0 then at else at[..|at| - 1])
                  else at + [xs[0]];
      WalkAppend(next, xs[1..], ys);
    }
  }

  /** Plain names are entered one after the other. */
  lemma {:induction false} WalkNames(at: Segments, names: seq<string>)
    requires Canonical(at) && Canonical(names)
    ensures Walk(at, names) == at + names
    decreases |names|
  {
    if |names| > 0 {
      WalkNames(at + [names[0]], names[1..]);
      assert at + [names[0]] + names[1..] == at + names;
    }
  }

  /** A joined list of pieces starts with its first piece. */
  lemma JoinStart(parts: seq<string>, sep: char)
    requires 1 <= |parts| && |parts[0]| > 0
    ensures |Join(parts, sep)| > 0 && Join(parts, sep)[0] == parts[0][0]
  {
  }

  /** Text without a separator is one piece. */
  lemma SplitName(n: string)
    requires '/' !in n
    ensures Split(n, '/') == [n]
  {
    SplitJoin([n], '/');
  }

  /** Stepping over an empty or "." segment stays put. */
  lemma WalkSkip(at: Segments, skip: string, ys: seq<string>)
    requires Canonical(at) && (skip == "" || skip == ".")
    ensures Walk(at, [skip] + ys) == Walk(at, ys)
  {
    assert ([skip] + ys)[1..] == ys;
  }

  /** Entering a directory and leaving it again stays put. */
  lemma WalkEnterLeave(at: Segments, n: string)
    requires Canonical(at) && IsName(n)
    ensures Walk(at, [n, ".."]) == at
  {
    assert Walk(at + [n], [".."]) == at by {
      assert (at + [n])[..|at + [n]| - 1] == at;
    }
    assert Walk(at, [n, ".."]) == Walk(at + [n], [".."]) by {
      assert [n, ".."][1..] == [".."];
    }
  }

  /** From the root, `/n/..` followed by plain names reaches exactly those names. */
  lemma WalkClimbOut(n: string, tail: seq<string>)
    requires IsName(n) && Canonical(tail)
    ensures Walk([], [""] + ([n, ".."] + tail)) == tail
  {
    WalkSkip([], "", [n, ".."] + tail);
    WalkAppend([], [n, ".."], tail);
    WalkEnterLeave([], n);
    WalkNames([], tail);
  }

  // ---------------------------------------------------------------------
  // Spellings that name the same location
  // ---------------------------------------------------------------------

  /** `x//y` is `x/y`. */
  lemma LocateDoubleSlash(workdir: string, x: string, y: string)
    requires |x| > 0 && x[0] != '/'
    ensures Locate(workdir, x + "//" + y) == Locate(workdir, x + "/" + y)
  {
    var at := Absolute(workdir);
    SplitAround(x, y, '/');
    SplitAround("", y, '/');
    assert "" + "/" + y == "/" + y;
    SplitAround(x, "/" + y, '/');
    assert x + "//" + y == x + "/" + ("/" + y);
    WalkAppend(at, Split(x, '/'), [""] + Split(y, '/'));
    WalkAppend(at, Split(x, '/'), Split(y, '/'));
    WalkSkip(Walk(at, Split(x, '/')), "", Split(y, '/'));
  }

  /** `x/./y` is `x/y`. */
  lemma LocateDotSegment(workdir: string, x: string, y: string)
    requires |x| > 0 && x[0] != '/'
    ensures Locate(workdir, x + "/./" + y) == Locate(workdir, x + "/" + y)
  {
    var at := Absolute(workdir);
    SplitAround(x, y, '/');
    SplitAround(".", y, '/');
    SplitName(".");
    SplitAround(x, "./" + y, '/');
    assert x + "/./" + y == x + "/" + ("./" + y);
    WalkAppend(at, Split(x, '/'), ["."] + Split(y, '/'));
    WalkAppend(at, Split(x, '/'), Split(y, '/'));
    WalkSkip(Walk(at, Split(x, '/')), ".", Split(y, '/'));
  }

  /** `./x` is `x`. */
  lemma LocateDotPrefix(workdir: string, x: string)
    requires !IsAbsolute(x)
    ensures Locate(workdir, "./" + x) == Locate(workdir, x)
  {
    SplitAround(".", x, '/');
    SplitName(".");
    assert "." + "/" + x == "./" + x;
    WalkSkip(Absolute(workdir), ".", Split(x, '/'));
  }

  /** `n/../y` is `y` for a plain name `n`. */
  lemma LocateParent(workdir: string, n: string, y: string)
    requires IsName(n) && '/' !in n && !IsAbsolute(y)
    ensures Locate(workdir, n + "/../" + y) == Locate(workdir, y)
  {
    var at := Absolute(workdir);
    var ys := Split(y, '/');
    SplitAround("..", y, '/');
    assert ".." + "/" + y == "../" + y;
    SplitName("..");
    SplitName(n);
    SplitAround(n, "../" + y, '/');
    assert n + "/../" + y == n + "/" + ("../" + y);
    assert (n + "/../" + y)[0] == n[0] && n[0] != '/';
    assert [n] + ([".."] + ys) == [n, ".."] + ys;
    WalkAppend(at, [n, ".."], ys);
    WalkEnterLeave(at, n);
  }
}

=== FILE: provider.dfy ===
/**
 * The provider facade of the local sandbox: creating an instance (lazily:
 * nothing touches the engine until the first operation), resuming, and
 * listing environments.
 */
module Provider {
  import opened Wrappers
  import opened Text
  import opened Images
  import opened Streaming
  import opened Sandbox
  import opened Lifecycle

  /** `dagger-<agent or "default">-<now in base 36>`. */
  function SandboxId(agent: Option<string>, now: nat): (id: string)
    ensures "dagger-" <= id
    ensures Truthy(agent) ==> "dagger-" + agent.value + "-" <= id
    ensures !Truthy(agent) ==> "dagger-default-" <= id
  {
    var prefix := "dagger-" + OrElse(agent, "default") + "-";
    assert prefix == "dagger-" + (OrElse(agent, "default") + "-");
    prefix + NatToString(now, 36)
  }

  /** The text after the last `-` of an identifier (all of it when there is none). */
  function TimestampOf(id: string): (t: string)
    ensures |t| <= |id| && t == id[|id| - |t|..] && '-' !in t
    ensures |t| < |id| ==> id[|id| - |t| - 1] == '-'
  {
    if |id| == 0 || id[|id| - 1] == '-' then ""
    else TimestampOf(id[..|id| - 1]) + [id[|id| - 1]]
  }

  /** Base-36 digits never include `-`. */
  lemma NoDashInDigits(t: string)
    requires AllDigits(t, 36)
    ensures '-' !in t
  {
  }

  /** A dash-free suffix after a dash is exactly what `TimestampOf` reads back. */
  lemma {:induction false} TimestampOfSuffix(prefix: string, t: string)
    requires '-' !in t
    ensures TimestampOf(prefix + "-" + t) == t
    decreases |t|
  {
    var id := prefix + "-" + t;
    if |t| == 0 {
      assert id[|id| - 1] == '-';
    } else {
      var shorter := t[..|t| - 1];
      assert id[..|id| - 1] == prefix + "-" + shorter;
      assert '-' !in shorter by {
        assert forall c :: c in shorter ==> c in t;
      }
      TimestampOfSuffix(prefix, shorter);
      assert id[|id| - 1] == t[|t| - 1];
      assert shorter + [t[|t| - 1]] == t;
    }
  }

  /** The creation time can be read back from an identifier, whatever the agent type. */
  lemma {:induction false} SandboxIdRoundTrip(agent: Option<string>, now: nat)
    ensures TimestampOf(SandboxId(agent, now)) == NatToString(now, 36)
    ensures AllDigits(TimestampOf(SandboxId(agent, now)), 36)
    ensures ParseNat(TimestampOf(SandboxId(agent, now)), 36) == now
  {
    var t := NatToString(now, 36);
    NoDashInDigits(t);
    TimestampOfSuffix("dagger-" + OrElse(agent, "default"), t);
    ParseNatToString(now, 36);
  }

  /**
   * `create(envs, agentType, workingDirectory)`: a running instance with no
   * base container yet; the Dockerfile is dropped when registry images are
   * preferred.
   */
  function Create(config: LocalConfig, envs: seq<(string, string)>, agent: Option<string>, workingDirectory: Option<string>, now: nat): (s: Instance)
    ensures s.id == SandboxId(agent, now) && s.agent == agent && s.envs == envs
    ensures s.workdir == OrElse(workingDirectory, DefaultWorkdir)
    ensures s.dockerfile.Some? <==> !config.preferRegistryImages && IsKnown(agent)
    ensures s.dockerfile.Some? ==> s.dockerfile == DockerfilePath(agent)
    ensures s.fallbackImage == FallbackImage
    ensures s.running && s.init.Uninitialized? && s.base.None? && s.snapshot.None?
  {
    Instance(
      SandboxId(agent, now), agent, envs, OrElse(workingDirectory, DefaultWorkdir),
      if config.preferRegistryImages then None else DockerfilePath(agent),
      FallbackImage, true, Uninitialized, None, None)
  }

  /** `resume(sandboxId)`: a new default instance; the identifier is not consulted. */
  function Resume(config: LocalConfig, sandboxId: string, now: nat): (s: Instance)
    ensures "dagger-default-" <= s.id && s.agent.None? && s.envs == []
    ensures s.workdir == DefaultWorkdir && s.dockerfile.None?
    ensures s.init.Uninitialized? && s.snapshot.None?
  {
    Create(config, [], None, None, now)
  }

  /** Two resumes at the same moment are the same instance, whatever identifiers they name. */
  lemma ResumeIgnoresId(config: LocalConfig, a: string, b: string, now: nat)
    ensures Resume(config, a, now) == Resume(config, b, now)
  {
  }

  /** Local environments are created on demand, so there is none to list. */
  function ListEnvironments(): (r: seq<string>)
    ensures |r| == 0
  {
    []
  }

  /**
   * The first operation on a fresh instance creates the base container and
   * runs in a freshly created working directory on it.
   */
  lemma FirstRunInitialisesAndCreatesWorkdir(
    config: LocalConfig, envs: seq<(string, string)>, agent: Option<string>, wd: Option<string>, now: nat,
    h: Host, command: string, clock: Clock)
    requires h.link.Connected?
    requires var s := Create(config, envs, agent, wd, now);
             CreateBase(s.agent, s.dockerfile, s.fallbackImage, s.envs, h.config, h.accepts).outcome.Success?
    ensures var s := Create(config, envs, agent, wd, now);
            var c := CreateBase(s.agent, s.dockerfile, s.fallbackImage, s.envs, h.config, h.accepts).outcome.value;
            var r := Run(s, h, command, false, clock);
            && r.after.base == Some(c) && c.env == envs
            && match h.mkdir(c, s.workdir)
               case Failure(m) => r.answer == Returned(FailureResult(m))
               case Success(d) =>
                 match h.exec(c, d, command, false)
                 case Success(out) => r.answer == Returned(ExecResult(0, out.stdout, out.stderr))
                 case Failure(m) => r.answer == Returned(FailureResult(m))
  {
    var s := Create(config, envs, agent, wd, now);
    var s1 := EnsureInitialized(s, h).0;
    assert Ready(s1, h) && s1.snapshot.None?;
    match h.mkdir(s1.base.value, s1.workdir)
    case Failure(m) =>
      PoisonedWorkspaceFailsAgain(s1, h, command, "", clock, m);
    case Success(d) =>
      CommandSeesPreviousWorkspace(s1, h, command, clock, d);
  }
}

=== FILE: sandbox.dfy ===
/**
 * The local sandbox instance: one long-lived sandbox emulated on top of
 * immutable container snapshots.
 *
 * The container engine is a `Host`, a record of uninterpreted functions: it
 * decides whether each image strategy loads, what `mkdir -p` leaves in the
 * working directory, what a shell command prints and leaves behind, and how
 * files outside the working directory read. Every operation is a pure
 * transition from one `Instance` to the next, together with what it returned
 * or threw and the events it emitted.
 *
 * The workspace snapshot is kept as the engine keeps it: a lazy recipe
 * (base container, then the commands and file writes applied to the working
 * directory), evaluated only when a command's output or a file's contents are
 * awaited. So a command's recipe becomes the snapshot before its output is
 * known, whether or not it then succeeds.
 */
module Sandbox {
  import opened Wrappers
  import opened Text
  import opened Images
  import opened Streaming
  import opened Paths

  /** The contents of the working directory: resolved file path, relative to it, to contents. */
  type Dir = map<Segments, string>

  /** What the engine captures from a finished shell command. */
  datatype Captured = Captured(stdout: string, stderr: string, workdir: Dir)

  /** Whether `connect` reaches the engine for one operation. */
  datatype Link = Connected | Unreachable(reason: string)

  /** The container engine and the environment one operation runs in. */
  datatype Host = Host(
    link: Link,
    config: UserConfig,
    accepts: ImageSource -> Load,
    mkdir: (Container, string) -> Result<Dir>,
    exec: (Container, Dir, string, bool) -> Result<Captured>,
    readOutside: (Container, Segments) -> Result<string>,
    missing: string -> string)

  /** A lazy directory reference, as the engine's `container.directory(...)` returns it. */
  datatype Workspace =
    | Created(base: Container)
    | Ran(base: Container, prior: Workspace, command: string, privileged: bool)
    | Wrote(prior: Workspace, path: string, content: string)

  const DefaultWorkdir: string := "/vibe0"
  const NotInitialized: string := "Base container not initialized"

  /** The memoised initialisation promise: absent, resolved, or rejected. */
  datatype InitState = Uninitialized | Initialized | InitFailed(reason: string)

  datatype Instance = Instance(
    id: string,
    agent: Option<string>,
    envs: seq<(string, string)>,
    workdir: string,
    dockerfile: Option<string>,
    fallbackImage: string,
    running: bool,
    init: InitState,
    base: Option<Container>,
    snapshot: Option<Workspace>)

  /** What an asynchronous operation settles to: a value, or a thrown error. */
  datatype Answer<T> = Returned(value: T) | Thrown(reason: string)

  /** One operation: the instance afterwards, its answer and the events it emitted. */
  datatype Step<T> = Step(after: Instance, answer: Answer<T>, events: seq<Event>)

  // ---------------------------------------------------------------------
  // Paths and lazy workspace evaluation
  // ---------------------------------------------------------------------

  /**
   * Where `path` lands relative to the working directory once the engine has
   * resolved it, or None when it lands outside (or on the directory itself).
   */
  function Resolve(workdir: string, path: string): (r: Option<Segments>)
    ensures r.Some? ==> |r.value| > 0 && Absolute(workdir) + r.value == Locate(workdir, path)
    ensures r.None? ==> !(Absolute(workdir) < Locate(workdir, path))
  {
    var dir := Absolute(workdir);
    var p := Locate(workdir, path);
    if dir < p then Some(p[|dir|..]) else None
  }

  /** A relative path of plain names, or the same names under an absolute working directory, lands inside. */
  lemma ResolveNames(workdir: string, names: seq<string>)
    requires |names| > 0 && Canonical(names)
    requires forall i :: 0 <= i < |names| ==> '/' !in names[i]
    ensures Resolve(workdir, Join(names, '/')) == Some(names)
    ensures IsAbsolute(workdir) ==> Resolve(workdir, workdir + "/" + Join(names, '/')) == Some(names)
  {
    var rel := Join(names, '/');
    SplitJoin(names, '/');
    JoinStart(names, '/');
    WalkNames(Absolute(workdir), names);
    assert Locate(workdir, rel) == Absolute(workdir) + names;
    if IsAbsolute(workdir) {
      SplitAround(workdir, rel, '/');
      WalkAppend([], Split(workdir, '/'), names);
      assert Locate(workdir, workdir + "/" + rel) == Absolute(workdir) + names;
    }
  }

  /** Empty and "." segments name nothing: `a//b`, `a/./b` and `./a` are `a/b`, `a/b` and `a`. */
  lemma RedundantSegments(workdir: string, x: string, y: string)
    requires |x| > 0 && x[0] != '/'
    ensures Resolve(workdir, x + "//" + y) == Resolve(workdir, x + "/" + y)
    ensures Resolve(workdir, x + "/./" + y) == Resolve(workdir, x + "/" + y)
    ensures Resolve(workdir, "./" + x) == Resolve(workdir, x)
  {
    LocateDoubleSlash(workdir, x, y);
    LocateDotSegment(workdir, x, y);
    LocateDotPrefix(workdir, x);
  }

  /** `n/../y` is `y` for a plain name `n`. */
  lemma ParentSegment(workdir: string, n: string, y: string)
    requires IsName(n) && '/' !in n && !IsAbsolute(y)
    ensures Resolve(workdir, n + "/../" + y) == Resolve(workdir, y)
  {
    LocateParent(workdir, n, y);
  }

  lemma DefaultWorkdirSegments()
    ensures Absolute(DefaultWorkdir) == ["vibe0"]
  {
    SplitAround("", "vibe0", '/');
    SplitName("vibe0");
    assert "" + "/" + "vibe0" == DefaultWorkdir;
    assert Split(DefaultWorkdir, '/') == ["", "vibe0"];
  }

  /** Inside `/vibe0`, `./a` and `a` are the same file. */
  lemma ResolveDotExample()
    ensures Resolve(DefaultWorkdir, "./a") == Resolve(DefaultWorkdir, "a") == Some(["a"])
  {
    assert Join(["a"], '/') == "a";
    ResolveNames(DefaultWorkdir, ["a"]);
    LocateDotPrefix(DefaultWorkdir, "a");
    assert "./" + "a" == "./a";
  }

  lemma ClimbOutPieces()
    ensures Split("/vibe0/../etc/x", '/') == ["", "vibe0", "..", "etc", "x"]
  {
    var parts := ["", "vibe0", "..", "etc", "x"];
    assert Join(parts[3..], '/') == "etc/x" by {
      assert Join(parts[4..], '/') == "x";
    }
    assert Join(parts[1..], '/') == "vibe0/../etc/x" by {
      assert Join(parts[2..], '/') == "../etc/x";
    }
    assert Join(parts, '/') == "/vibe0/../etc/x";
    SplitJoin(parts, '/');
  }

  lemma ClimbOutLocation(path: string)
    requires Split(path, '/') == ["", "vibe0", "..", "etc", "x"]
    ensures Absolute(path) == ["etc", "x"]
  {
    var tail: seq<string> := ["etc", "x"];
    WalkClimbOut("vibe0", tail);
    assert Split(path, '/') == [""] + (["vibe0", ".."] + tail);
  }

  /** Inside `/vibe0`, a path that climbs out through `..` lands outside. */
  lemma ResolveClimbOutExample()
    ensures Resolve(DefaultWorkdir, "/vibe0/../etc/x").None?
  {
    var path := "/vibe0/../etc/x";
    ClimbOutPieces();
    ClimbOutLocation(path);
    DefaultWorkdirSegments();
    assert IsAbsolute(path);
    assert Locate(DefaultWorkdir, path) == ["etc", "x"];
    assert !(["vibe0"] < ["etc", "x"]) by {
      assert ["etc", "x"][0] != "vibe0";
    }
  }

  lemma ParentPieces()
    ensures Split("../etc/hostname", '/') == ["..", "etc", "hostname"]
  {
    var parts := ["..", "etc", "hostname"];
    assert Join(parts[1..], '/') == "etc/hostname" by {
      assert Join(parts[2..], '/') == "hostname";
    }
    assert Join(parts, '/') == "../etc/hostname";
    SplitJoin(parts, '/');
  }

  lemma ParentLocation(path: string)
    requires Split(path, '/') == ["..", "etc", "hostname"]
    ensures Walk(["vibe0"], Split(path, '/')) == ["etc", "hostname"]
  {
    var tail: seq<string> := ["etc", "hostname"];
    assert Split(path, '/') == [".."] + tail;
    WalkAppend(["vibe0"], [".."], tail);
    assert Walk(["vibe0"], [".."]) == [] by {
      assert ["vibe0"][..0] == [];
    }
    WalkNames([], tail);
  }

  /** Inside `/vibe0`, `../etc/hostname` names a file of the image, not of the working directory. */
  lemma ResolveParentExample()
    ensures Resolve(DefaultWorkdir, "../etc/hostname").None?
  {
    var path := "../etc/hostname";
    ParentPieces();
    ParentLocation(path);
    DefaultWorkdirSegments();
    assert !IsAbsolute(path);
    assert Locate(DefaultWorkdir, path) == ["etc", "hostname"];
    assert !(["vibe0"] < ["etc", "hostname"]) by {
      assert ["etc", "hostname"][0] != "vibe0";
    }
  }

  /** `withNewFile(path, content)` as seen through the captured working directory. */
  function PutFile(d: Dir, workdir: string, path: string, content: string): (r: Dir)
    ensures Resolve(workdir, path).Some? ==> r == d[Resolve(workdir, path).value := content]
    ensures Resolve(workdir, path).None? ==> r == d
  {
    match Resolve(workdir, path)
    case Some(rel) => d[rel := content]
    case None => d
  }

  /** Evaluate a lazy workspace reference through the engine. */
  function Materialize(h: Host, workdir: string, w: Workspace): Result<Dir> {
    match w
    case Created(b) => h.mkdir(b, workdir)
    case Ran(b, prior, command, privileged) =>
      (match Materialize(h, workdir, prior)
       case Failure(m) => Failure(m)
       case Success(d) =>
         (match h.exec(b, d, command, privileged)
          case Failure(m) => Failure(m)
          case Success(c) => Success(c.workdir)))
    case Wrote(prior, path, content) =>
      match Materialize(h, workdir, prior)
      case Failure(m) => Failure(m)
      case Success(d) => Success(PutFile(d, workdir, path, content))
  }

  /** Run `command` on `base` with the working directory restored from `prior`. */
  function Perform(h: Host, workdir: string, base: Container, prior: Workspace, command: string, privileged: bool): (r: Result<Captured>)
    ensures Materialize(h, workdir, prior).Failure? ==> r == Failure(Materialize(h, workdir, prior).error)
    ensures Materialize(h, workdir, prior).Success? ==> r == h.exec(base, Materialize(h, workdir, prior).value, command, privileged)
  {
    match Materialize(h, workdir, prior)
    case Failure(m) => Failure(m)
    case Success(d) => h.exec(base, d, command, privileged)
  }

  /** The recorded snapshot, or a freshly created working directory on the base. */
  function Restore(s: Instance, base: Container): Workspace {
    match s.snapshot
    case Some(w) => w
    case None => Created(base)
  }

  // ---------------------------------------------------------------------
  // Base-container initialisation
  // ---------------------------------------------------------------------

  /**
   * `ensureInitialized`: start initialisation on first use and remember its
   * outcome; a remembered outcome, success or failure, is returned again.
   */
  function EnsureInitialized(s: Instance, h: Host): (r: (Instance, Result<()>))
    ensures !r.0.init.Uninitialized?
    ensures !s.init.Uninitialized? ==> r.0 == s
    ensures r.1.Success? <==> r.0.init.Initialized?
    ensures r.0.init.InitFailed? ==> r.1 == Failure(r.0.init.reason)
    ensures r.0.snapshot == s.snapshot && r.0.workdir == s.workdir && r.0.id == s.id
    ensures s.init.Uninitialized? && r.0.init.Initialized? ==> r.0.base.Some?
    ensures s.init.Uninitialized? && r.0.init.InitFailed? ==> r.0.base == s.base
  {
    match s.init
    case Initialized => (s, Success(()))
    case InitFailed(m) => (s, Failure(m))
    case Uninitialized =>
      match h.link
      case Unreachable(m) => (s.(init := InitFailed(m)), Failure(m))
      case Connected =>
        var created := CreateBase(s.agent, s.dockerfile, s.fallbackImage, s.envs, h.config, h.accepts);
        match created.outcome
        case Success(c) => (s.(init := Initialized, base := Some(c)), Success(()))
        case Failure(m) => (s.(init := InitFailed(m)), Failure(m))
  }

  // ---------------------------------------------------------------------
  // Operations
  // ---------------------------------------------------------------------

  /** The part of `commands.run` after initialisation: state, result and middle events. */
  function Execute(s: Instance, h: Host, command: string, background: bool): (r: (Instance, ExecResult, seq<Event>))
    ensures r.0.init == s.init && r.0.base == s.base && r.0.workdir == s.workdir
    ensures forall i :: 0 <= i < |r.2| ==> IsBody(r.2[i])
  {
    if h.link.Unreachable? then
      (s, FailureResult(h.link.reason), [Error(h.link.reason)])
    else if s.base.None? then
      (s, FailureResult(NotInitialized), [Error(NotInitialized)])
    else
      var b := s.base.value;
      var prior := Restore(s, b);
      var next := s.(snapshot := Some(Ran(b, prior, command, background)));
      if background then
        (next, BackgroundResult(command), [])
      else
        match Perform(h, s.workdir, b, prior, command, false)
        case Failure(m) => (next, FailureResult(m), [Error(m)])
        case Success(c) =>
          SuccessEventsAreBody(c.stdout, c.stderr);
          (next, ExecResult(0, c.stdout, c.stderr), SuccessEvents(c.stdout, c.stderr))
  }

  /**
   * `commands.run(command, {background})`: initialise, emit the start record,
   * run, emit the end record. Only an initialisation failure is thrown.
   */
  function Run(s: Instance, h: Host, command: string, background: bool, clock: Clock): (r: Step<ExecResult>)
    ensures r.answer.Thrown? <==> r.after.init.InitFailed?
    ensures r.answer.Thrown? ==> r.events == [] && r.after.snapshot == s.snapshot
    ensures r.answer.Returned? ==> WellFramed(r.events, command, r.answer.value.exitCode)
    ensures !r.after.init.Uninitialized?
  {
    var (s1, ready) := EnsureInitialized(s, h);
    if ready.Failure? then Step(s1, Thrown(ready.error), [])
    else
      var (s2, result, middle) := Execute(s1, h, command, background);
      FramedIsWellFramed(command, result, middle, clock);
      Step(s2, Returned(result), Framed(command, result, middle, clock))
  }

  // ---------------------------------------------------------------------
  // `run` on an instance nobody listens to for `error` events
  // ---------------------------------------------------------------------

  /**
   * The code of the error an event emitter throws when it emits `error` and
   * no listener for `error` is registered.
   */
  const UnhandledError: string := "ERR_UNHANDLED_ERROR"

  predicate HasError(events: seq<Event>) {
    exists i :: 0 <= i < |events| && events[i].Error?
  }

  /** The events delivered before the first `error` emission throws. */
  function UntilError(events: seq<Event>): (r: seq<Event>)
    ensures r <= events
    ensures forall i :: 0 <= i < |r| ==> r[i].Update?
    ensures |r| < |events| <==> HasError(events)
    ensures |r| < |events| ==> events[|r|].Error?
  {
    if |events| == 0 || events[0].Error? then []
    else
      var rest := UntilError(events[1..]);
      assert HasError(events[1..]) ==> HasError(events) by {
        if HasError(events[1..]) {
          var i :| 0 <= i < |events[1..]| && events[1..][i].Error?;
          assert events[i + 1].Error?;
        }
      }
      [events[0]] + rest
  }

  /**
   * `commands.run` as written, on an instance without an `error` listener:
   * each catch block emits `error`, the emission itself throws, and the
   * throw escapes every enclosing catch, so the call rejects after the
   * events already delivered and never emits its end record.
   */
  function RunUnobserved(s: Instance, h: Host, command: string, background: bool, clock: Clock): (r: Step<ExecResult>)
    ensures r.after == Run(s, h, command, background, clock).after
    ensures r.answer.Returned? ==> r == Run(s, h, command, background, clock)
  {
    var (s1, ready) := EnsureInitialized(s, h);
    if ready.Failure? then Step(s1, Thrown(ready.error), [])
    else
      var (s2, result, middle) := Execute(s1, h, command, background);
      if HasError(middle) then
        Step(s2, Thrown(UnhandledError), [Update(StartRecord(command, clock.started))] + UntilError(middle))
      else Step(s2, Returned(result), Framed(command, result, middle, clock))
  }

  /**
   * As written, a failing command makes an unobserved `run` reject, where the
   * code evidently means to return the failure as a result; an engine that
   * cannot be reached is one such failure.
   */
  lemma UnobservedFailureRejects(s: Instance, h: Host, command: string, clock: Clock)
    requires s.init.Initialized? && h.link.Unreachable?
    ensures RunUnobserved(s, h, command, false, clock).answer == Thrown(UnhandledError)
    ensures RunUnobserved(s, h, command, false, clock).events == [Update(StartRecord(command, clock.started))]
    ensures Run(s, h, command, false, clock).answer == Returned(FailureResult(h.link.reason))
  {
    var middle := [Error(h.link.reason)];
    assert middle[0].Error?;
    assert UntilError(middle) == [];
  }

  /** `readFile(path)`: the file's contents in the current workspace; changes no snapshot. */
  function ReadFile(s: Instance, h: Host, path: string): (r: Step<string>)
    ensures r.after == EnsureInitialized(s, h).0
    ensures r.after.snapshot == s.snapshot
    ensures r.events == []
  {
    var (s1, ready) := EnsureInitialized(s, h);
    if ready.Failure? then Step(s1, Thrown(ready.error), [])
    else if h.link.Unreachable? then Step(s1, Thrown(h.link.reason), [])
    else if s1.base.None? then Step(s1, Thrown(NotInitialized), [])
    else
      var b := s1.base.value;
      match Materialize(h, s1.workdir, Restore(s1, b))
      case Failure(m) => Step(s1, Thrown(m), [])
      case Success(d) =>
        match Resolve(s1.workdir, path)
        case Some(rel) =>
          if rel in d then Step(s1, Returned(d[rel]), []) else Step(s1, Thrown(h.missing(path)), [])
        case None =>
          match h.readOutside(b, Locate(s1.workdir, path))
          case Success(text) => Step(s1, Returned(text), [])
          case Failure(m) => Step(s1, Thrown(m), [])
  }

  /** `writeFile(path, content)`: record the write in the snapshot without evaluating it. */
  function WriteFile(s: Instance, h: Host, path: string, content: string): (r: Step<()>)
    ensures r.events == []
    ensures r.answer.Returned? <==> r.after.init.Initialized? && h.link.Connected? && r.after.base.Some?
    ensures r.answer.Returned? ==>
              r.after.snapshot == Some(Wrote(Restore(s, r.after.base.value), path, content))
    ensures r.answer.Thrown? ==> r.after.snapshot == s.snapshot
  {
    var (s1, ready) := EnsureInitialized(s, h);
    if ready.Failure? then Step(s1, Thrown(ready.error), [])
    else if h.link.Unreachable? then Step(s1, Thrown(h.link.reason), [])
    else if s1.base.None? then Step(s1, Thrown(NotInitialized), [])
    else
      var b := s1.base.value;
      Step(s1.(snapshot := Some(Wrote(Restore(s1, b), path, content))), Returned(()), [])
  }

  /** `kill()`: drop the snapshot and the base container; the initialisation promise stays. */
  function Kill(s: Instance): (r: Instance)
    ensures r.snapshot.None? && r.base.None? && !r.running
    ensures r.init == s.init && r.id == s.id && r.workdir == s.workdir
  {
    s.(running := false, snapshot := None, base := None)
  }

  /** `pause()`: nothing to do for local containers. */
  function Pause(s: Instance): (r: Instance)
    ensures r == s
  {
    s
  }

  /** `getHost(port)`: local containers are always reached on localhost. */
  function GetHost(s: Instance, port: int): (r: string)
    ensures r == "localhost"
  {
    "localhost"
  }
}

=== FILE: settings.dfy ===
/**
 * The terminal settings menu: three menus of actions, a selection cursor
 * that wraps around, toggles that each flip one persisted flag, and the
 * settings file merged over the defaults when the menu opens.
 */
module Settings {
  import opened Wrappers

  datatype SandboxSection = SandboxSection(enabled: bool, kind: string)
  datatype ProxySection = ProxySection(enabled: bool, redactionEnabled: bool)
  datatype AnalyticsSection = AnalyticsSection(enabled: bool)
  datatype AliasSection = AliasSection(enabled: bool)

  datatype Config = Config(
    sandbox: SandboxSection,
    proxy: ProxySection,
    analytics: AnalyticsSection,
    aliases: AliasSection)

  /** The settings in force before the file is read. */
  const Defaults: Config := Config(
    SandboxSection(false, "docker"), ProxySection(true, true), AnalyticsSection(true), AliasSection(false))

  // ---------------------------------------------------------------------
  // Loading
  // ---------------------------------------------------------------------

  /** The top-level sections a settings file contains; an absent one is None. */
  datatype Stored = Stored(
    sandbox: Option<SandboxSection>,
    proxy: Option<ProxySection>,
    analytics: Option<AnalyticsSection>,
    aliases: Option<AliasSection>)

  /** What reading the settings file gave: nothing there, an error, or its sections. */
  datatype LoadOutcome = Missing | Unreadable | Found(stored: Stored)

  function Pick<T>(stored: Option<T>, current: T): T {
    match stored
    case Some(v) => v
    case None => current
  }

  /** `{...current, ...loaded}`: every section the file has replaces the current one whole. */
  function Merge(current: Config, outcome: LoadOutcome): (r: Config)
    ensures !outcome.Found? ==> r == current
    ensures outcome.Found? ==>
              && (outcome.stored.sandbox.Some? ==> r.sandbox == outcome.stored.sandbox.value)
              && (outcome.stored.sandbox.None? ==> r.sandbox == current.sandbox)
              && (outcome.stored.proxy.Some? ==> r.proxy == outcome.stored.proxy.value)
              && (outcome.stored.proxy.None? ==> r.proxy == current.proxy)
              && (outcome.stored.analytics.Some? ==> r.analytics == outcome.stored.analytics.value)
              && (outcome.stored.analytics.None? ==> r.analytics == current.analytics)
              && (outcome.stored.aliases.Some? ==> r.aliases == outcome.stored.aliases.value)
              && (outcome.stored.aliases.None? ==> r.aliases == current.aliases)
  {
    match outcome
    case Found(s) =>
      Config(Pick(s.sandbox, current.sandbox), Pick(s.proxy, current.proxy),
             Pick(s.analytics, current.analytics), Pick(s.aliases, current.aliases))
    case _ => current
  }

  /** The settings a complete file stores. */
  function Full(c: Config): Stored {
    Stored(Some(c.sandbox), Some(c.proxy), Some(c.analytics), Some(c.aliases))
  }

  /** A file holding every section is taken as it is; an empty file changes nothing. */
  lemma MergeExtremes(current: Config, c: Config)
    ensures Merge(current, Found(Full(c))) == c
    ensures Merge(current, Found(Stored(None, None, None, None))) == current
  {
  }

  /** Merging is idempotent: loading the same file twice is loading it once. */
  lemma MergeIdempotent(current: Config, outcome: LoadOutcome)
    ensures Merge(Merge(current, outcome), outcome) == Merge(current, outcome)
  {
  }

  // ---------------------------------------------------------------------
  // Menus
  // ---------------------------------------------------------------------

  datatype Menu = MainMenu | AnalyticsMenu | SystemMenu

  datatype Action =
    | OpenAnalytics | OpenSettings | Exit
    | ToggleAnalytics | ViewDashboard | BackToMain
    | ToggleSandbox | ToggleAliases | ToggleProxy | ToggleRedaction

  datatype Item = Item(title: string, action: Action)

  function OnOff(on: bool): string {
    if on then "\U{2713} ON" else "\U{2717} OFF"
  }

  /** The items of a menu, labelled with the current state of each flag. */
  function MenuItems(menu: Menu, c: Config): (items: seq<Item>)
    ensures |items| == (if menu.SystemMenu? then 5 else 3)
    ensures menu.MainMenu? ==> items[0].action == OpenAnalytics && items[1].action == OpenSettings && items[2].action == Exit
    ensures !menu.MainMenu? ==> items[|items| - 1].action == BackToMain
  {
    match menu
    case MainMenu =>
      [Item("Analytics", OpenAnalytics), Item("Settings", OpenSettings), Item("Exit", Exit)]
    case AnalyticsMenu =>
      [Item("Analytics: " + OnOff(c.analytics.enabled), ToggleAnalytics),
       Item("View Dashboard", ViewDashboard),
       Item("Back to Main Menu", BackToMain)]
    case SystemMenu =>
      [Item("Sandbox Isolation: " + OnOff(c.sandbox.enabled), ToggleSandbox),
       Item("Connect IDE: " + (if c.aliases.enabled then "\U{2713} ON (requires restart)" else OnOff(false)), ToggleAliases),
       Item("Proxy Server: " + OnOff(c.proxy.enabled), ToggleProxy),
       Item("Proxy Redaction: " + OnOff(c.proxy.redactionEnabled), ToggleRedaction),
       Item("Back to Main Menu", BackToMain)]
  }

  /** The number of items does not depend on the settings. */
  function MenuSize(menu: Menu): nat {
    if menu.SystemMenu? then 5 else 3
  }

  // ---------------------------------------------------------------------
  // Toggles
  // ---------------------------------------------------------------------

  predicate IsToggle(a: Action) {
    a.ToggleAnalytics? || a.ToggleSandbox? || a.ToggleAliases? || a.ToggleProxy? || a.ToggleRedaction?
  }

  /** The five persisted flags, in a fixed order. */
  function Flags(c: Config): seq<bool> {
    [c.sandbox.enabled, c.aliases.enabled, c.proxy.enabled, c.proxy.redactionEnabled, c.analytics.enabled]
  }

  /** The position in `Flags` of the flag a toggle controls. */
  function FlagOf(a: Action): nat
    requires IsToggle(a)
  {
    match a
    case ToggleSandbox => 0
    case ToggleAliases => 1
    case ToggleProxy => 2
    case ToggleRedaction => 3
    case ToggleAnalytics => 4
  }

  /** The settings after a toggle action: one flag negated, spread over the rest. */
  function Toggle(c: Config, a: Action): (r: Config)
    requires IsToggle(a)
    ensures |Flags(r)| == |Flags(c)| == 5
    ensures Flags(r)[FlagOf(a)] == !Flags(c)[FlagOf(a)]
    ensures forall i :: 0 <= i < 5 && i != FlagOf(a) ==> Flags(r)[i] == Flags(c)[i]
    ensures r.sandbox.kind == c.sandbox.kind
  {
    match a
    case ToggleSandbox => c.(sandbox := c.sandbox.(enabled := !c.sandbox.enabled))
    case ToggleAliases => c.(aliases := c.aliases.(enabled := !c.aliases.enabled))
    case ToggleProxy => c.(proxy := c.proxy.(enabled := !c.proxy.enabled))
    case ToggleRedaction => c.(proxy := c.proxy.(redactionEnabled := !c.proxy.redactionEnabled))
    case ToggleAnalytics => c.(analytics := c.analytics.(enabled := !c.analytics.enabled))
  }

  /** Two configurations with the same flags and sandbox type are the same configuration. */
  lemma FlagsDetermine(c: Config, d: Config)
    requires Flags(c) == Flags(d) && c.sandbox.kind == d.sandbox.kind
    ensures c == d
  {
    assert Flags(c)[0] == Flags(d)[0] && Flags(c)[1] == Flags(d)[1] && Flags(c)[2] == Flags(d)[2];
    assert Flags(c)[3] == Flags(d)[3] && Flags(c)[4] == Flags(d)[4];
  }

  /** Toggling the same flag twice restores the settings. */
  lemma ToggleInvolution(c: Config, a: Action)
    requires IsToggle(a)
    ensures Toggle(Toggle(c, a), a) == c
  {
    var t := Toggle(Toggle(c, a), a);
    forall i | 0 <= i < 5 ensures Flags(t)[i] == Flags(c)[i] {
    }
    FlagsDetermine(t, c);
  }

  /** Different toggles control different flags, so they commute. */
  lemma TogglesCommute(c: Config, a: Action, b: Action)
    requires IsToggle(a) && IsToggle(b)
    ensures Toggle(Toggle(c, a), b) == Toggle(Toggle(c, b), a)
  {
    var x := Toggle(Toggle(c, a), b);
    var y := Toggle(Toggle(c, b), a);
    forall i | 0 <= i < 5 ensures Flags(x)[i] == Flags(y)[i] {
    }
    FlagsDetermine(x, y);
  }

  // ---------------------------------------------------------------------
  // Input handling
  // ---------------------------------------------------------------------

  /** The special key of a key press, if any. */
  datatype Key = UpArrow | DownArrow | LeftArrow | Return | Escape | NoKey

  /** One key press: the typed text and the special key. */
  datatype Input = Input(text: string, key: Key)

  /** Effects outside the menu's own state. */
  datatype Effect =
    | SaveFile(saved: Config)
    | Quit
    | StartDashboard
    | StartProxy
    | StopProxy
    | SetupAliases(enabled: bool)

  /** What the surroundings answer: whether the file write succeeds, whether a proxy runs. */
  datatype Surroundings = Surroundings(saveSucceeds: bool, proxyRunning: bool)

  datatype Ui = Ui(settings: Config, selected: int, loading: bool, menu: Menu)

  /** The state the menu opens in. */
  const Opening: Ui := Ui(Defaults, 0, true, MainMenu)

  /** The selection points at an item of the current menu. */
  predicate Valid(u: Ui) {
    0 <= u.selected < MenuSize(u.menu)
  }

  /** The load effect finishes: the file is merged in and input is accepted. */
  function Loaded(u: Ui, outcome: LoadOutcome): (r: Ui)
    ensures !r.loading && r.menu == u.menu && r.selected == u.selected
    ensures r.settings == Merge(u.settings, outcome)
  {
    u.(settings := Merge(u.settings, outcome), loading := false)
  }

  /** Change menu; the cursor goes back to the first item. */
  function Switch(u: Ui, menu: Menu): (r: Ui)
    ensures Valid(r) && r.menu == menu && r.selected == 0
    ensures r.settings == u.settings && r.loading == u.loading
  {
    u.(menu := menu, selected := 0)
  }

  /** `saveSettings(next)`: write the file; only a successful write updates the state. */
  function Save(u: Ui, next: Config, env: Surroundings): (r: (Ui, seq<Effect>))
    ensures r.1 == [SaveFile(next)]
    ensures r.0.settings == (if env.saveSucceeds then next else u.settings)
    ensures r.0.menu == u.menu && r.0.selected == u.selected
  {
    (if env.saveSucceeds then u.(settings := next) else u, [SaveFile(next)])
  }

  /** Enter or space on the selected item. */
  function Activate(u: Ui, env: Surroundings): (r: (Ui, seq<Effect>))
    requires Valid(u)
    ensures Valid(r.0)
  {
    var action := MenuItems(u.menu, u.settings)[u.selected].action;
    match action
    case OpenAnalytics => (Switch(u, AnalyticsMenu), [])
    case OpenSettings => (Switch(u, SystemMenu), [])
    case BackToMain => (Switch(u, MainMenu), [])
    case ViewDashboard => (u, [Quit, StartDashboard])
    case Exit => (u, [Quit])
    case ToggleProxy =>
      var next := Toggle(u.settings, action);
      var (v, saved) := Save(u, next, env);
      var proxy :=
        if next.proxy.enabled && !env.proxyRunning then [StartProxy]
        else if !next.proxy.enabled && env.proxyRunning then [StopProxy]
        else [];
      (v, saved + proxy)
    case ToggleAliases =>
      var next := Toggle(u.settings, action);
      var (v, saved) := Save(u, next, env);
      (v, saved + [SetupAliases(next.aliases.enabled)])
    case _ =>
      Save(u, Toggle(u.settings, action), env)
  }

  /**
   * The effects of activating each item: navigation has none, the dashboard
   * and exit items quit, and every toggle first saves the flipped settings;
   * the proxy toggle then starts or stops the proxy only when its running
   * state disagrees with the new flag, and the aliases toggle sets up or
   * removes the aliases.
   */
  lemma ActivateEffects(u: Ui, env: Surroundings)
    requires Valid(u)
    ensures var a := MenuItems(u.menu, u.settings)[u.selected].action;
            var r := Activate(u, env);
            && (a.OpenAnalytics? || a.OpenSettings? || a.BackToMain? ==> r.1 == [] && r.0.settings == u.settings)
            && (a.ViewDashboard? ==> r == (u, [Quit, StartDashboard]))
            && (a.Exit? ==> r == (u, [Quit]))
            && (IsToggle(a) ==> |r.1| >= 1 && r.1[0] == SaveFile(Toggle(u.settings, a)))
            && (a.ToggleAliases? ==> r.1[1..] == [SetupAliases(!u.settings.aliases.enabled)])
            && (a.ToggleProxy? ==>
                  r.1[1..] == (if u.settings.proxy.enabled != env.proxyRunning then []
                               else if env.proxyRunning then [StopProxy] else [StartProxy]))
            && (a.ToggleSandbox? || a.ToggleRedaction? || a.ToggleAnalytics? ==> |r.1| == 1)
  {
  }

  /** `useInput`: one key press on the menu. */
  function Step(u: Ui, input: Input, env: Surroundings): (r: (Ui, seq<Effect>))
    requires Valid(u)
    ensures Valid(r.0)
    ensures u.loading ==> r == (u, [])
    ensures r.0.loading == u.loading
  {
    if u.loading then (u, [])
    else if input.key.UpArrow? || input.text == "k" then
      (u.(selected := if u.selected > 0 then u.selected - 1 else MenuSize(u.menu) - 1), [])
    else if input.key.DownArrow? || input.text == "j" then
      (u.(selected := if u.selected < MenuSize(u.menu) - 1 then u.selected + 1 else 0), [])
    else if input.key.LeftArrow? then
      (if u.menu != MainMenu then Switch(u, MainMenu) else u, [])
    else if input.key.Return? || input.text == " " then
      Activate(u, env)
    else if input.key.Escape? || input.text == "q" then
      if u.menu != MainMenu then (Switch(u, MainMenu), []) else (u, [Quit])
    else (u, [])
  }

  const Up: Input := Input("", UpArrow)
  const Down: Input := Input("", DownArrow)
  const Left: Input := Input("", LeftArrow)
  const Enter: Input := Input("", Return)
  const Esc: Input := Input("", Escape)

  /** The menu opens in a valid state, and loading keeps it valid. */
  lemma OpeningIsValid(outcome: LoadOutcome)
    ensures Valid(Opening) && Valid(Loaded(Opening, outcome))
    ensures Loaded(Opening, outcome).settings == Merge(Defaults, outcome)
  {
  }

  /** Up wraps from the first item to the last; Down wraps from the last to the first. */
  lemma CursorWraps(u: Ui, env: Surroundings)
    requires Valid(u) && !u.loading
    ensures u.selected == 0 ==> Step(u, Up, env).0.selected == MenuSize(u.menu) - 1
    ensures u.selected == MenuSize(u.menu) - 1 ==> Step(u, Down, env).0.selected == 0
    ensures Step(u, Input("k", NoKey), env) == Step(u, Up, env)
    ensures Step(u, Input("j", NoKey), env) == Step(u, Down, env)
  {
  }

  /** Up then Down, or Down then Up, returns to the same item, touching nothing else. */
  lemma UpDownInverse(u: Ui, env: Surroundings)
    requires Valid(u) && !u.loading
    ensures Step(Step(u, Up, env).0, Down, env) == (u, [])
    ensures Step(Step(u, Down, env).0, Up, env) == (u, [])
  {
  }

  /** Moving the cursor |menu| times in one direction comes back to the start. */
  lemma {:induction false} CursorCycles(u: Ui, env: Surroundings, n: nat)
    requires Valid(u) && !u.loading
    ensures Walk(u, env, n).menu == u.menu && Walk(u, env, n).settings == u.settings
    ensures Walk(u, env, n).selected == (u.selected + n) % MenuSize(u.menu)
    decreases n
  {
    if n > 0 {
      CursorCycles(u, env, n - 1);
    }
  }

  /** The state after pressing Down `n` times. */
  function Walk(u: Ui, env: Surroundings, n: nat): (r: Ui)
    requires Valid(u)
    ensures Valid(r) && r.loading == u.loading
    decreases n
  {
    if n == 0 then u else Step(Walk(u, env, n - 1), Down, env).0
  }

  /** Left, Esc and `q` leave a submenu for the main menu's first item. */
  lemma BackFromSubmenu(u: Ui, env: Surroundings)
    requires Valid(u) && !u.loading && u.menu != MainMenu
    ensures Step(u, Left, env) == (u.(menu := MainMenu, selected := 0), [])
    ensures Step(u, Esc, env) == (u.(menu := MainMenu, selected := 0), [])
    ensures Step(u, Input("q", NoKey), env) == Step(u, Esc, env)
  {
  }

  /** On the main menu Left does nothing, while Esc and `q` quit. */
  lemma KeysOnMain(u: Ui, env: Surroundings)
    requires Valid(u) && !u.loading && u.menu == MainMenu
    ensures Step(u, Left, env) == (u, [])
    ensures Step(u, Esc, env) == (u, [Quit])
    ensures Step(u, Input("q", NoKey), env) == (u, [Quit])
  {
  }

  /**
   * Activating a toggle saves the settings with exactly that flag flipped;
   * they are in force once the write succeeds, and activating it again
   * restores the original settings.
   */
  lemma {:induction false} ActivateToggle(u: Ui, env: Surroundings)
    requires Valid(u) && !u.loading && env.saveSucceeds
    requires IsToggle(MenuItems(u.menu, u.settings)[u.selected].action)
    ensures var a := MenuItems(u.menu, u.settings)[u.selected].action;
            var r := Step(u, Enter, env);
            && r.0 == u.(settings := Toggle(u.settings, a))
            && r.1[0] == SaveFile(Toggle(u.settings, a))
            && MenuItems(u.menu, r.0.settings)[u.selected].action == a
            && Step(r.0, Enter, env).0 == u
  {
    var a := MenuItems(u.menu, u.settings)[u.selected].action;
    var v := u.(settings := Toggle(u.settings, a));
    assert MenuItems(u.menu, v.settings)[u.selected].action == a;
    ToggleInvolution(u.settings, a);
  }

  /** Whatever the key, changing menu puts the cursor on the first item. */
  lemma MenuChangeResetsCursor(u: Ui, input: Input, env: Surroundings)
    requires Valid(u)
    ensures Step(u, input, env).0.menu != u.menu ==> Step(u, input, env).0.selected == 0
  {
  }

  /** Whatever the key, the settings change only by the toggle under the cursor. */
  lemma OnlyTogglesChangeSettings(u: Ui, input: Input, env: Surroundings)
    requires Valid(u)
    ensures var r := Step(u, input, env).0;
            var a := MenuItems(u.menu, u.settings)[u.selected].action;
            r.settings != u.settings ==> IsToggle(a) && r.settings == Toggle(u.settings, a)
  {
  }

  /** A failed write leaves the settings as they were. */
  lemma FailedSaveKeepsSettings(u: Ui, env: Surroundings)
    requires Valid(u) && !u.loading && !env.saveSucceeds
    ensures Step(u, Enter, env).0.settings == u.settings
  {
  }

  /** Opening a submenu and going back lands on the main menu's first item. */
  lemma OpenThenBack(u: Ui, env: Surroundings)
    requires Valid(u) && !u.loading && u.menu == MainMenu && u.selected < 2
    ensures var entered := Step(u, Enter, env).0;
            && entered.menu == (if u.selected == 0 then AnalyticsMenu else SystemMenu)
            && entered.selected == 0
            && Step(entered, Esc, env).0 == u.(selected := 0)
  {
  }
}

=== FILE: streaming.dfy ===
/**
 * The streaming adapter of the local sandbox: how a command's captured output
 * or failure text becomes an exit code and an ordered sequence of events.
 */
module Streaming {
  import opened Wrappers
  import opened Text

  /** What a command returns to its caller. */
  datatype ExecResult = ExecResult(exitCode: int, stdout: string, stderr: string)

  /**
   * The payload of an `update` event: a plain output line, or one of the two
   * JSON records (`{type: "start", command, timestamp}` and
   * `{type: "end", command, exitCode, timestamp}`).
   */
  datatype Payload =
    | Line(text: string)
    | StartRecord(command: string, timestamp: int)
    | EndRecord(command: string, exitCode: int, timestamp: int)

  /** An emitted event: on the `update` channel or on the `error` channel. */
  datatype Event = Update(payload: Payload) | Error(message: string)

  /** The two `Date.now()` readings of one `run`. */
  datatype Clock = Clock(started: int, ended: int)

  // ---------------------------------------------------------------------
  // Exit codes recovered from failure text
  // ---------------------------------------------------------------------

  /** The phrase the exit-code pattern `/exit code (\d+)/` looks for. */
  const ExitPhrase: string := "exit code "

  /** The pattern matches at `i`: the phrase, then at least one digit. */
  predicate MatchAt(m: string, i: nat) {
    i + |ExitPhrase| < |m| && m[i..i + |ExitPhrase|] == ExitPhrase && IsDecimalDigit(m[i + |ExitPhrase|])
  }

  /** The leftmost match at or after `from`, as a regular-expression search finds it. */
  function FirstMatch(m: string, from: nat): (r: Option<nat>)
    ensures r.Some? ==> from <= r.value && MatchAt(m, r.value)
    ensures r.Some? ==> forall k :: from <= k < r.value ==> !MatchAt(m, k)
    ensures r.None? ==> forall k :: from <= k ==> !MatchAt(m, k)
    decreases |m| - from
  {
    if from + |ExitPhrase| >= |m| then None
    else if MatchAt(m, from) then Some(from)
    else FirstMatch(m, from + 1)
  }

  /** The end of the maximal run of decimal digits starting at `j`. */
  function DigitRunEnd(m: string, j: nat): (e: nat)
    requires j <= |m|
    ensures j <= e <= |m|
    ensures forall k :: j <= k < e ==> IsDecimalDigit(m[k])
    ensures e < |m| ==> !IsDecimalDigit(m[e])
    decreases |m| - j
  {
    if j < |m| && IsDecimalDigit(m[j]) then DigitRunEnd(m, j + 1) else j
  }

  /** The digits the greedy `(\d+)` group captures at a match. */
  function CapturedDigits(m: string, i: nat): (d: string)
    requires MatchAt(m, i)
    ensures 1 <= |d|
    ensures forall k :: 0 <= k < |d| ==> IsDecimalDigit(d[k])
  {
    var start := i + |ExitPhrase|;
    m[start..DigitRunEnd(m, start)]
  }

  /** The exit code read from an engine error message, defaulting to 1. */
  function ExitCodeOf(message: string): (code: int)
    ensures code >= 0
  {
    match FirstMatch(message, 0)
    case None => 1
    case Some(i) => DecimalValue(CapturedDigits(message, i))
  }

  /** Exit-code extraction, characterised by where the pattern matches. */
  lemma ExitCodeCharacterization(message: string)
    ensures (forall i: nat :: !MatchAt(message, i)) ==> ExitCodeOf(message) == 1
    ensures forall i: nat :: MatchAt(message, i) && (forall k: nat :: k < i ==> !MatchAt(message, k)) ==>
              ExitCodeOf(message) == DecimalValue(CapturedDigits(message, i))
  {
    match FirstMatch(message, 0)
    case None =>
    case Some(j) =>
      forall i: nat | MatchAt(message, i) && (forall k: nat :: k < i ==> !MatchAt(message, k))
        ensures ExitCodeOf(message) == DecimalValue(CapturedDigits(message, i))
      {
        assert i == j;
      }
  }

  /** A message without the letter `x` cannot contain the phrase, so it reads as exit code 1. */
  lemma NoPhraseMeansOne(message: string)
    requires 'x' !in message
    ensures ExitCodeOf(message) == 1
  {
    forall i: nat ensures !MatchAt(message, i) {
      if i + |ExitPhrase| < |message| {
        assert message[i..i + |ExitPhrase|][1] == message[i + 1];
        assert message[i + 1] in message;
        assert ExitPhrase[1] == 'x';
      }
    }
    ExitCodeCharacterization(message);
  }

  /** The regular expression reads the whole digit run of the leftmost match. */
  lemma ExitCodeExamples()
    ensures ExitCodeOf("exit code 42") == 42
    ensures ExitCodeOf("exit code 0") == 0
    ensures ExitCodeOf("exit code: 7") == 1
  {
    var m := "exit code 42";
    assert MatchAt(m, 0);
    assert m[10..12] == "42";
    ExitCodeCharacterization(m);
    assert DecimalValue("42") == 42 by {
      assert "42"[..1] == "4";
    }
    var z := "exit code 0";
    assert MatchAt(z, 0);
    assert z[10..11] == "0";
    ExitCodeCharacterization(z);
    var colon := "exit code: 7";
    forall i: nat ensures !MatchAt(colon, i) {
      if i + |ExitPhrase| < |colon| {
        assert i <= 1;
        assert colon[i..i + |ExitPhrase|][0] == colon[i];
        assert colon[i..i + |ExitPhrase|][9] == colon[i + 9];
      }
    }
    ExitCodeCharacterization(colon);
  }

  // ---------------------------------------------------------------------
  // Output lines and event sequences
  // ---------------------------------------------------------------------

  /** The lines kept by `.filter((line) => line.trim())`, untrimmed and in order. */
  function NonBlank(parts: seq<string>): (kept: seq<string>)
    ensures |kept| <= |parts|
    ensures forall l :: l in kept <==> l in parts && !IsBlank(l)
  {
    if |parts| == 0 then []
    else (if IsBlank(parts[0]) then [] else [parts[0]]) + NonBlank(parts[1..])
  }

  /** The filter keeps order: it distributes over concatenation. */
  lemma {:induction false} NonBlankAppend(a: seq<string>, b: seq<string>)
    ensures NonBlank(a + b) == NonBlank(a) + NonBlank(b)
  {
    if |a| == 0 {
      assert a + b == b;
    } else {
      assert (a + b)[1..] == a[1..] + b;
      NonBlankAppend(a[1..], b);
    }
  }

  /** The non-blank lines of a captured output, each emitted as one event. */
  function OutputLines(output: string): (lines: seq<string>)
    ensures forall i :: 0 <= i < |lines| ==> !IsBlank(lines[i]) && '\n' !in lines[i]
    ensures forall l :: l in lines <==> l in Split(output, '\n') && !IsBlank(l)
  {
    NonBlank(Split(output, '\n'))
  }

  /** Line-splitting loses no non-blank text: the split pieces rejoin to the output. */
  lemma OutputLinesCoverOutput(output: string)
    ensures Join(Split(output, '\n'), '\n') == output
    ensures forall l :: l in OutputLines(output) ==> l in Split(output, '\n')
  {
    JoinSplit(output, '\n');
  }

  function UpdateLines(lines: seq<string>): (r: seq<Event>)
    ensures |r| == |lines|
    ensures forall i :: 0 <= i < |lines| ==> r[i] == Update(Line(lines[i]))
  {
    seq(|lines|, i requires 0 <= i < |lines| => Update(Line(lines[i])))
  }

  function ErrorLines(lines: seq<string>): (r: seq<Event>)
    ensures |r| == |lines|
    ensures forall i :: 0 <= i < |lines| ==> r[i] == Error(lines[i])
  {
    seq(|lines|, i requires 0 <= i < |lines| => Error(lines[i]))
  }

  /** The summary update sent once when a command wrote to stderr. */
  function StderrSummary(stderr: string): Event {
    Update(Line("STDERR: " + stderr))
  }

  /** The middle events of a successful foreground command. */
  function SuccessEvents(stdout: string, stderr: string): (r: seq<Event>)
    ensures |r| == |OutputLines(stdout)| + |OutputLines(stderr)| + (if stderr == "" then 0 else 1)
    ensures forall i :: 0 <= i < |OutputLines(stdout)| ==> r[i] == Update(Line(OutputLines(stdout)[i]))
    ensures forall i :: 0 <= i < |OutputLines(stderr)| ==>
              r[|OutputLines(stdout)| + i] == Error(OutputLines(stderr)[i])
    ensures stderr != "" ==> r[|r| - 1] == StderrSummary(stderr)
  {
    OutputLinesOfEmpty();
    (if stdout != "" then UpdateLines(OutputLines(stdout)) else [])
    + (if stderr != "" then ErrorLines(OutputLines(stderr)) + [StderrSummary(stderr)] else [])
  }

  lemma OutputLinesOfEmpty()
    ensures OutputLines("") == []
  {
    assert Split("", '\n') == [""];
  }

  /** The result reported when the engine fails with `message`. */
  function FailureResult(message: string): (r: ExecResult)
    ensures r.stdout == "" && r.stderr == message
    ensures r.exitCode == ExitCodeOf(message)
  {
    ExecResult(ExitCodeOf(message), "", message)
  }

  /** The synthetic result of a background command. */
  function BackgroundResult(command: string): ExecResult {
    ExecResult(0, "Background process started: " + command, "")
  }

  /** Wrap the middle events of a run in its start and end records. */
  function Framed(command: string, result: ExecResult, middle: seq<Event>, clock: Clock): (r: seq<Event>)
    ensures |r| == |middle| + 2
    ensures r[0] == Update(StartRecord(command, clock.started))
    ensures r[|r| - 1] == Update(EndRecord(command, result.exitCode, clock.ended))
    ensures r[1..|r| - 1] == middle
  {
    [Update(StartRecord(command, clock.started))] + middle + [Update(EndRecord(command, result.exitCode, clock.ended))]
  }

  /** Neither a start nor an end record. */
  predicate IsBody(e: Event) {
    e.Error? || e.payload.Line?
  }

  /** Start first, end last, carrying the exit code, and no other record in between. */
  predicate WellFramed(events: seq<Event>, command: string, exitCode: int) {
    && 2 <= |events|
    && events[0].Update? && events[0].payload.StartRecord? && events[0].payload.command == command
    && (var last := events[|events| - 1];
        last.Update? && last.payload.EndRecord? && last.payload.command == command
        && last.payload.exitCode == exitCode)
    && forall i :: 0 < i < |events| - 1 ==> IsBody(events[i])
  }

  /** Every middle this adapter produces leads to a well-framed event sequence. */
  lemma FramedIsWellFramed(command: string, result: ExecResult, middle: seq<Event>, clock: Clock)
    requires forall i :: 0 <= i < |middle| ==> IsBody(middle[i])
    ensures WellFramed(Framed(command, result, middle, clock), command, result.exitCode)
  {
    var r := Framed(command, result, middle, clock);
    forall i | 0 < i < |r| - 1 ensures IsBody(r[i]) {
      assert r[i] == middle[i - 1];
    }
  }

  lemma SuccessEventsAreBody(stdout: string, stderr: string)
    ensures forall i :: 0 <= i < |SuccessEvents(stdout, stderr)| ==> IsBody(SuccessEvents(stdout, stderr)[i])
  {
    var r := SuccessEvents(stdout, stderr);
    var n := |OutputLines(stdout)|;
    var m := |OutputLines(stderr)|;
    forall i | 0 <= i < |r| ensures IsBody(r[i]) {
      if i < n {
        assert r[i] == Update(Line(OutputLines(stdout)[i]));
      } else if i < n + m {
        assert r[i] == Error(OutputLines(stderr)[i - n]);
      } else {
        assert r[i] == StderrSummary(stderr);
      }
    }
  }
}

=== FILE: telemetry.dfy ===
/**
 * The telemetry dashboard client, over data already fetched: the session
 * query's endpoint and query string, and the synthetic event feed built
 * from the first sessions of a query result, newest first.
 */
module Telemetry {
  import opened Wrappers
  import opened Text

  // ---------------------------------------------------------------------
  // application/x-www-form-urlencoded serialisation (`URLSearchParams`)
  // ---------------------------------------------------------------------

  /** The characters the form serialiser leaves as they are. */
  predicate Unreserved(c: char) {
    || ('0' <= c <= '9') || ('A' <= c <= 'Z') || ('a' <= c <= 'z')
    || c == '*' || c == '-' || c == '.' || c == '_'
  }

  const HexUpper: string := "0123456789ABCDEF"

  /** The UTF-8 encoding of one Unicode scalar value. */
  function Utf8(c: char): (bytes: seq<nat>)
    ensures 1 <= |bytes| <= 4
    ensures forall i :: 0 <= i < |bytes| ==> bytes[i] < 256
    ensures (c as int < 0x80) <==> |bytes| == 1
    ensures |bytes| == 1 ==> bytes[0] == c as int
  {
    var n := c as int;
    if n < 0x80 then [n]
    else if n < 0x800 then [0xC0 + n / 0x40, 0x80 + n % 0x40]
    else if n < 0x10000 then [0xE0 + n / 0x1000, 0x80 + (n / 0x40) % 0x40, 0x80 + n % 0x40]
    else [0xF0 + n / 0x40000, 0x80 + (n / 0x1000) % 0x40, 0x80 + (n / 0x40) % 0x40, 0x80 + n % 0x40]
  }

  /** `%XX` for each byte, upper-case hexadecimal. */
  function Percent(bytes: seq<nat>): (r: string)
    requires forall i :: 0 <= i < |bytes| ==> bytes[i] < 256
    ensures |r| == 3 * |bytes|
    ensures forall i :: 0 <= i < |r| ==> r[i] == '%' || Unreserved(r[i])
  {
    if |bytes| == 0 then ""
    else ['%', HexUpper[bytes[0] / 16], HexUpper[bytes[0] % 16]] + Percent(bytes[1..])
  }

  function EncodeChar(c: char): (r: string)
    ensures 1 <= |r|
    ensures forall i :: 0 <= i < |r| ==> r[i] == '%' || r[i] == '+' || Unreserved(r[i])
    ensures Unreserved(c) ==> r == [c]
  {
    if Unreserved(c) then [c]
    else if c == ' ' then "+"
    else Percent(Utf8(c))
  }

  /** The serialisation of one name or value. */
  function FormEncode(s: string): (r: string)
    ensures |r| >= |s|
    ensures forall i :: 0 <= i < |r| ==> r[i] == '%' || r[i] == '+' || Unreserved(r[i])
    ensures (forall i :: 0 <= i < |s| ==> Unreserved(s[i])) ==> r == s
  {
    if |s| == 0 then ""
    else EncodeChar(s[0]) + FormEncode(s[1..])
  }

  /** An encoded value never contains the separators of the query string. */
  lemma EncodedHasNoSeparators(s: string)
    ensures '&' !in FormEncode(s) && '=' !in FormEncode(s)
  {
  }

  /** Spaces become `+` and every other reserved character a UTF-8 escape. */
  lemma EncodeExamples()
    ensures FormEncode("a b") == "a+b"
    ensures FormEncode(":") == "%3A"
  {
    assert FormEncode(" b") == "+" + FormEncode("b");
    assert FormEncode("a b") == "a" + FormEncode(" b");
    assert EncodeChar(':') == Percent([0x3A]);
  }

  /** A non-ASCII character is escaped byte by byte. */
  lemma Utf8Example()
    ensures EncodeChar('\U{00E9}') == "%C3%A9"
  {
    assert Utf8('\U{00E9}') == [0xC3, 0xA9];
    assert HexUpper[0xC3 / 16] == 'C' && HexUpper[0xC3 % 16] == '3';
    assert HexUpper[0xA9 / 16] == 'A' && HexUpper[0xA9 % 16] == '9';
  }

  /** Serialisation works character by character. */
  lemma {:induction false} FormEncodeAppend(a: string, b: string)
    ensures FormEncode(a + b) == FormEncode(a) + FormEncode(b)
  {
    if |a| > 0 {
      assert (a + b)[1..] == a[1..] + b;
      FormEncodeAppend(a[1..], b);
    } else {
      assert a + b == b;
    }
  }

  // ---------------------------------------------------------------------
  // The session query
  // ---------------------------------------------------------------------

  /** The filters of a session query; the time bounds are already ISO-8601 text. */
  datatype Filters = Filters(agentType: Option<string>, sessionId: Option<string>, since: Option<string>, until: Option<string>)

  /** The parameters appended, in the order the query appends them. */
  function Params(f: Filters): (ps: seq<(string, string)>)
    ensures |ps| <= 4
    ensures |ps| == 0 <==> !Truthy(f.agentType) && !Truthy(f.sessionId) && f.since.None? && f.until.None?
    ensures Truthy(f.agentType) ==> ps[0] == ("agent", f.agentType.value)
    ensures forall k :: 0 <= k < |ps| ==>
              (ps[k].0 == "agent" ==> Truthy(f.agentType) && ps[k].1 == f.agentType.value)
              && (ps[k].0 == "session" ==> Truthy(f.sessionId) && ps[k].1 == f.sessionId.value)
              && (ps[k].0 == "since" ==> f.since.Some? && ps[k].1 == f.since.value)
              && (ps[k].0 == "until" ==> f.until.Some? && ps[k].1 == f.until.value)
  {
    (if Truthy(f.agentType) then [("agent", f.agentType.value)] else [])
    + (if Truthy(f.sessionId) then [("session", f.sessionId.value)] else [])
    + (if f.since.Some? then [("since", f.since.value)] else [])
    + (if f.until.Some? then [("until", f.until.value)] else [])
  }

  /** The names of the parameters, which keep the fixed order agent, session, since, until. */
  function Names(ps: seq<(string, string)>): seq<string> {
    seq(|ps|, i requires 0 <= i < |ps| => ps[i].0)
  }

  /** One `name=value` pair of the query string. */
  function Pair(p: (string, string)): (r: string)
    ensures '&' !in r
  {
    EncodedHasNoSeparators(p.0);
    EncodedHasNoSeparators(p.1);
    FormEncode(p.0) + "=" + FormEncode(p.1)
  }

  /** The pairs of a parameter list. */
  function Pairs(ps: seq<(string, string)>): (r: seq<string>)
    ensures |r| == |ps|
    ensures forall i :: 0 <= i < |ps| ==> r[i] == Pair(ps[i])
  {
    seq(|ps|, i requires 0 <= i < |ps| => Pair(ps[i]))
  }

  /** `params.toString()`. */
  function QueryString(ps: seq<(string, string)>): (r: string)
    ensures |ps| == 0 <==> r == ""
  {
    if |ps| == 0 then "" else Join(Pairs(ps), '&')
  }

  /** `querySessions(filters)`: the endpoint requested. */
  function QueryEndpoint(f: Filters): (r: string)
    ensures r == "/query" <==> |Params(f)| == 0
    ensures |Params(f)| > 0 ==> r == "/query?" + QueryString(Params(f))
  {
    var qs := QueryString(Params(f));
    if qs == "" then "/query" else "/query?" + qs
  }

  /** Splitting the query string at `&` gives back one pair per parameter, in order. */
  lemma QueryStringSplits(f: Filters)
    requires |Params(f)| > 0
    ensures Split(QueryString(Params(f)), '&') == Pairs(Params(f))
  {
    SplitJoin(Pairs(Params(f)), '&');
  }

  /** Each filter contributes its parameter exactly when it is set, in the fixed order. */
  lemma ParamOrder(f: Filters)
    ensures Names(Params(f)) ==
            (if Truthy(f.agentType) then ["agent"] else [])
            + (if Truthy(f.sessionId) then ["session"] else [])
            + (if f.since.Some? then ["since"] else [])
            + (if f.until.Some? then ["until"] else [])
  {
  }

  // ---------------------------------------------------------------------
  // Synthetic events
  // ---------------------------------------------------------------------

  /**
   * A query result row: the fields the events are built from. The `data`
   * payload fields (mode, repoUrl, metadata, status, eventCount) are copied
   * into the event unchanged and are not modelled.
   */
  datatype SessionRow = SessionRow(
    id: string,
    agentType: Option<string>,
    startTime: Option<int>,
    endTime: Option<int>,
    createdAt: Option<int>,
    status: string)

  datatype EventKind = SessionStart | SessionEnd | SessionError

  /** An event; a duration of None is the NaN of subtracting from a missing start. */
  datatype FeedEvent = FeedEvent(
    kind: EventKind,
    sessionId: string,
    agentType: Option<string>,
    timestamp: int,
    duration: Option<int>)

  /** A timestamp is truthy when present and non-zero. */
  predicate Set(t: Option<int>) {
    t.Some? && t.value != 0
  }

  /** The instants a `Date` can hold; `toISOString` throws for any other. */
  predicate ValidTime(t: int) {
    -8640000000000000 <= t <= 8640000000000000
  }

  /** `new Date(t).toISOString()` on an optional number: undefined is an invalid date. */
  function Stamp(t: Option<int>): (r: Result<int>)
    ensures r.Success? <==> t.Some? && ValidTime(t.value)
    ensures r.Success? ==> r.value == t.value
  {
    if t.Some? && ValidTime(t.value) then Success(t.value) else Failure("RangeError: Invalid time value")
  }

  /** Where each kind of event sits among a session's events. */
  function Rank(k: EventKind): nat {
    match k
    case SessionStart => 0
    case SessionEnd => 1
    case SessionError => 2
  }

  /** The instant an error event is stamped with: `startTime || createdAt`. */
  function ErrorTime(row: SessionRow): Option<int> {
    if Set(row.startTime) then row.startTime else row.createdAt
  }

  const InvalidTime: string := "RangeError: Invalid time value"

  /** The `session_start` event of a row: present when startTime is truthy. */
  function StartEvents(row: SessionRow): (r: Result<seq<FeedEvent>>)
    ensures r.Success? <==> (Set(row.startTime) ==> ValidTime(row.startTime.value))
    ensures r.Failure? ==> r.error == InvalidTime
    ensures r.Success? ==> |r.value| == (if Set(row.startTime) then 1 else 0)
    ensures r.Success? ==> forall e :: e in r.value ==> e == FeedEvent(SessionStart, row.id, row.agentType, row.startTime.value, None)
  {
    if !Set(row.startTime) then Success([])
    else if !ValidTime(row.startTime.value) then Failure(InvalidTime)
    else Success([FeedEvent(SessionStart, row.id, row.agentType, row.startTime.value, None)])
  }

  /** The `session_end` event: present when endTime is truthy; the duration is NaN without a start. */
  function EndEvents(row: SessionRow): (r: Result<seq<FeedEvent>>)
    ensures r.Success? <==> (Set(row.endTime) ==> ValidTime(row.endTime.value))
    ensures r.Failure? ==> r.error == InvalidTime
    ensures r.Success? ==> |r.value| == (if Set(row.endTime) then 1 else 0)
    ensures r.Success? ==> forall e :: e in r.value ==>
              e.kind == SessionEnd && e.sessionId == row.id && e.agentType == row.agentType && e.timestamp == row.endTime.value
              && e.duration == (if row.startTime.Some? then Some(row.endTime.value - row.startTime.value) else None)
  {
    if !Set(row.endTime) then Success([])
    else if !ValidTime(row.endTime.value) then Failure(InvalidTime)
    else
      var duration := if row.startTime.Some? then Some(row.endTime.value - row.startTime.value) else None;
      Success([FeedEvent(SessionEnd, row.id, row.agentType, row.endTime.value, duration)])
  }

  /** The `error` event: present when the status is `error`, stamped `startTime || createdAt`. */
  function ErrorEvents(row: SessionRow): (r: Result<seq<FeedEvent>>)
    ensures r.Success? <==> (row.status == "error" ==> Stamp(ErrorTime(row)).Success?)
    ensures r.Failure? ==> r.error == InvalidTime
    ensures r.Success? ==> |r.value| == (if row.status == "error" then 1 else 0)
    ensures r.Success? ==> forall e :: e in r.value ==>
              e.kind == SessionError && e.sessionId == row.id && e.agentType == row.agentType && Some(e.timestamp) == ErrorTime(row) && e.duration.None?
  {
    if row.status != "error" then Success([])
    else match Stamp(ErrorTime(row))
      case Failure(_) => Failure(InvalidTime)
      case Success(t) => Success([FeedEvent(SessionError, row.id, row.agentType, t, None)])
  }

  /** Three runs of at most one event each, of kinds ranked 0, 1 and 2, are in rank order. */
  lemma RanksIncrease(a: seq<FeedEvent>, b: seq<FeedEvent>, c: seq<FeedEvent>)
    requires |a| <= 1 && |b| <= 1 && |c| <= 1
    requires forall e :: e in a ==> Rank(e.kind) == 0
    requires forall e :: e in b ==> Rank(e.kind) == 1
    requires forall e :: e in c ==> Rank(e.kind) == 2
    ensures forall i, j :: 0 <= i < j < |a + b + c| ==> Rank((a + b + c)[i].kind) < Rank((a + b + c)[j].kind)
  {
    var s := a + b + c;
    forall i, j | 0 <= i < j < |s| ensures Rank(s[i].kind) < Rank(s[j].kind) {
      if i < |a| {
        assert s[i] == a[i];
        if j < |a| + |b| {
          assert s[j] == b[j - |a|];
        } else {
          assert s[j] == c[j - |a| - |b|];
        }
      } else {
        assert s[i] == b[i - |a|];
        assert s[j] == c[j - |a| - |b|];
      }
    }
  }

  /** The events of a row, kind by kind, as the three per-kind runs give them. */
  lemma RowKinds(row: SessionRow, a: seq<FeedEvent>, b: seq<FeedEvent>, c: seq<FeedEvent>)
    requires StartEvents(row) == Success(a) && EndEvents(row) == Success(b) && ErrorEvents(row) == Success(c)
    ensures Set(row.startTime) <==> exists e :: e in a + b + c && e.kind.SessionStart?
    ensures Set(row.endTime) <==> exists e :: e in a + b + c && e.kind.SessionEnd?
    ensures row.status == "error" <==> exists e :: e in a + b + c && e.kind.SessionError?
    ensures forall e :: e in a + b + c ==> e.sessionId == row.id && e.agentType == row.agentType
    ensures forall e :: e in a + b + c && e.kind.SessionStart? ==> e in a
    ensures forall e :: e in a + b + c && e.kind.SessionEnd? ==> e in b
    ensures forall e :: e in a + b + c && e.kind.SessionError? ==> e in c
  {
    var all := a + b + c;
    if Set(row.startTime) { assert a[0] in all; }
    if Set(row.endTime) { assert b[0] in all; }
    if row.status == "error" { assert c[0] in all; }
  }

  /** The start, end and error events of one session, in that order. */
  function RowEvents(row: SessionRow): (r: Result<seq<FeedEvent>>)
    ensures r.Success? <==>
              (Set(row.startTime) ==> ValidTime(row.startTime.value))
              && (Set(row.endTime) ==> ValidTime(row.endTime.value))
              && (row.status == "error" ==> Stamp(ErrorTime(row)).Success?)
    ensures r.Failure? ==> r.error == InvalidTime
    ensures r.Success? ==> |r.value| <= 3
    ensures r.Success? ==> forall i, j :: 0 <= i < j < |r.value| ==> Rank(r.value[i].kind) < Rank(r.value[j].kind)
    ensures r.Success? ==> (Set(row.startTime) <==> exists e :: e in r.value && e.kind.SessionStart?)
    ensures r.Success? ==> (Set(row.endTime) <==> exists e :: e in r.value && e.kind.SessionEnd?)
    ensures r.Success? ==> (row.status == "error" <==> exists e :: e in r.value && e.kind.SessionError?)
    ensures r.Success? ==> forall e :: e in r.value ==> e.sessionId == row.id && e.agentType == row.agentType
    ensures r.Success? ==> forall e :: e in r.value && e.kind.SessionStart? ==>
              e.timestamp == row.startTime.value && e.duration.None?
    ensures r.Success? ==> forall e :: e in r.value && e.kind.SessionEnd? ==>
              e.timestamp == row.endTime.value
              && e.duration == (if row.startTime.Some? then Some(row.endTime.value - row.startTime.value) else None)
    ensures r.Success? ==> forall e :: e in r.value && e.kind.SessionError? ==>
              Some(e.timestamp) == ErrorTime(row) && e.duration.None?
  {
    var start := StartEvents(row);
    var end := EndEvents(row);
    var error := ErrorEvents(row);
    if start.Failure? then Failure(start.error)
    else if end.Failure? then Failure(end.error)
    else if error.Failure? then Failure(error.error)
    else
      RanksIncrease(start.value, end.value, error.value);
      RowKinds(row, start.value, end.value, error.value);
      Success(start.value + end.value + error.value)
  }

  /** Whether `e` is one of the events of row `i`. */
  predicate EventOfRow(rows: seq<SessionRow>, i: int, e: FeedEvent) {
    0 <= i < |rows| && RowEvents(rows[i]).Success? && e in RowEvents(rows[i]).value
  }

  /** The events of the rows in order; the first invalid date aborts. */
  function CollectEvents(rows: seq<SessionRow>): (r: Result<seq<FeedEvent>>)
    ensures r.Success? ==> |r.value| <= 3 * |rows|
    ensures r.Success? <==> forall i :: 0 <= i < |rows| ==> RowEvents(rows[i]).Success?
    ensures r.Failure? ==> r.error == InvalidTime
    ensures r.Success? ==> forall e :: e in r.value <==> exists i :: EventOfRow(rows, i, e)
    ensures r.Success? && |rows| > 0 ==> RowEvents(rows[0]).value <= r.value
  {
    if |rows| == 0 then Success([])
    else match RowEvents(rows[0])
      case Failure(m) => Failure(m)
      case Success(head) =>
        match CollectEvents(rows[1..])
        case Failure(m) => Failure(m)
        case Success(tail) =>
          assert forall i :: 1 <= i < |rows| ==> rows[i] == rows[1..][i - 1];
          CollectMembers(rows, head, tail);
          Success(head + tail)
  }

  /** The events of the first row followed by those of the rest are the events of all rows. */
  lemma CollectMembers(rows: seq<SessionRow>, head: seq<FeedEvent>, tail: seq<FeedEvent>)
    requires |rows| > 0 && RowEvents(rows[0]) == Success(head)
    requires forall e :: e in tail <==> exists i :: EventOfRow(rows[1..], i, e)
    ensures forall e :: e in head + tail <==> exists i :: EventOfRow(rows, i, e)
  {
    forall e | e in head + tail ensures exists i :: EventOfRow(rows, i, e) {
      if e in head {
        assert EventOfRow(rows, 0, e);
      } else {
        var i :| EventOfRow(rows[1..], i, e);
        assert rows[1..][i] == rows[i + 1];
        assert EventOfRow(rows, i + 1, e);
      }
    }
    forall e | exists i :: EventOfRow(rows, i, e) ensures e in head + tail {
      var i :| EventOfRow(rows, i, e);
      if i > 0 {
        assert rows[1..][i - 1] == rows[i];
        assert EventOfRow(rows[1..], i - 1, e);
      }
    }
  }

  /** Newest first. */
  predicate SortedNewestFirst(s: seq<FeedEvent>) {
    forall i, j :: 0 <= i < j < |s| ==> s[i].timestamp >= s[j].timestamp
  }

  /** Insert before the first event that is not newer, keeping equal timestamps in order. */
  function Insert(e: FeedEvent, s: seq<FeedEvent>): (r: seq<FeedEvent>)
    ensures multiset(r) == multiset(s) + multiset{e}
    ensures |r| == |s| + 1
  {
    if |s| == 0 || e.timestamp >= s[0].timestamp then [e] + s
    else
      assert s == [s[0]] + s[1..];
      [s[0]] + Insert(e, s[1..])
  }

  /** Putting an event in front of a sorted sequence whose events are all no newer keeps it sorted. */
  lemma PrependSorted(x: FeedEvent, t: seq<FeedEvent>)
    requires SortedNewestFirst(t)
    requires forall k :: 0 <= k < |t| ==> x.timestamp >= t[k].timestamp
    ensures SortedNewestFirst([x] + t)
  {
    var r := [x] + t;
    forall i, j | 0 <= i < j < |r| ensures r[i].timestamp >= r[j].timestamp {
      if i > 0 {
        assert r[i] == t[i - 1] && r[j] == t[j - 1];
      } else {
        assert r[j] == t[j - 1];
      }
    }
  }

  /** Insertion keeps a sequence sorted newest first. */
  lemma {:induction false} InsertSorted(e: FeedEvent, s: seq<FeedEvent>)
    requires SortedNewestFirst(s)
    ensures SortedNewestFirst(Insert(e, s))
    decreases |s|
  {
    if |s| == 0 || e.timestamp >= s[0].timestamp {
      PrependSorted(e, s);
    } else {
      var tail := s[1..];
      var rest := Insert(e, tail);
      InsertSorted(e, tail);
      forall k | 0 <= k < |rest| ensures s[0].timestamp >= rest[k].timestamp {
        assert rest[k] in multiset(rest);
        if rest[k] != e {
          assert rest[k] in multiset(tail);
          var m :| 0 <= m < |tail| && tail[m] == rest[k];
          assert s[m + 1] == rest[k];
        }
      }
      PrependSorted(s[0], rest);
    }
  }

  /** `events.sort((a, b) => time(b) - time(a))`, a stable sort by timestamp, newest first. */
  function SortNewestFirst(s: seq<FeedEvent>): (r: seq<FeedEvent>)
    ensures SortedNewestFirst(r)
    ensures multiset(r) == multiset(s)
  {
    if |s| == 0 then []
    else
      assert s == [s[0]] + s[1..];
      InsertSorted(s[0], SortNewestFirst(s[1..]));
      Insert(s[0], SortNewestFirst(s[1..]))
  }

  /** How many rows of the query result the feed looks at. */
  const FeedRows: nat := 20

  /** `getEvents()`, given the query result rows. */
  function GetEvents(rows: seq<SessionRow>): (r: Result<seq<FeedEvent>>)
    ensures r.Success? ==> |r.value| <= 3 * (if |rows| < FeedRows then |rows| else FeedRows)
    ensures r.Success? ==> SortedNewestFirst(r.value)
    ensures r.Success? <==> CollectEvents(if |rows| <= FeedRows then rows else rows[..FeedRows]).Success?
    ensures r.Success? ==>
              multiset(r.value) == multiset(CollectEvents(if |rows| <= FeedRows then rows else rows[..FeedRows]).value)
    ensures r.Success? ==> forall e :: e in r.value <==> exists i :: i < FeedRows && EventOfRow(rows, i, e)
  {
    var considered := if |rows| <= FeedRows then rows else rows[..FeedRows];
    match CollectEvents(considered)
    case Failure(m) => Failure(m)
    case Success(events) =>
      var sorted := SortNewestFirst(events);
      assert |sorted| == |multiset(sorted)| == |multiset(events)| == |events|;
      FeedMembers(rows, considered, events, sorted);
      Success(sorted)
  }

  /** The feed holds exactly the events of the first twenty rows. */
  lemma FeedMembers(rows: seq<SessionRow>, considered: seq<SessionRow>, events: seq<FeedEvent>, sorted: seq<FeedEvent>)
    requires considered == if |rows| <= FeedRows then rows else rows[..FeedRows]
    requires forall e :: e in events <==> exists i :: EventOfRow(considered, i, e)
    requires multiset(sorted) == multiset(events)
    ensures forall e :: e in sorted <==> exists i :: i < FeedRows && EventOfRow(rows, i, e)
  {
    forall e ensures e in sorted <==> e in events {
      assert e in sorted <==> e in multiset(sorted);
      assert e in events <==> e in multiset(events);
    }
    forall e, i ensures EventOfRow(considered, i, e) <==> i < FeedRows && EventOfRow(rows, i, e) {
      if 0 <= i < |considered| {
        assert considered[i] == rows[i];
      }
    }
  }

  /** Rows past the twentieth never contribute events. */
  lemma LaterRowsIgnored(rows: seq<SessionRow>, extra: seq<SessionRow>)
    requires |rows| == FeedRows
    ensures GetEvents(rows + extra) == GetEvents(rows)
  {
    if |extra| == 0 {
      assert rows + extra == rows;
    } else {
      assert (rows + extra)[..FeedRows] == rows;
    }
  }

  /** A row that fails to stamp a date makes the whole feed fail. */
  lemma MissingCreatedAtFails(id: string)
    ensures GetEvents([SessionRow(id, None, None, None, None, "error")]).Failure?
  {
    var rows := [SessionRow(id, None, None, None, None, "error")];
    assert !RowEvents(rows[0]).Success?;
  }
}

=== FILE: text.dfy ===
/**
 * String helpers that stand in for the JavaScript built-ins the source uses:
 * `Number.prototype.toString(radix)`, `parseInt`, `String.prototype.split`,
 * `trim` and `toLowerCase`.
 */
module Text {

  /** The digit alphabet of `Number.prototype.toString(radix)` (lower case). */
  const Digits36: string := "0123456789abcdefghijklmnopqrstuvwxyz"

  predicate IsDecimalDigit(c: char) {
    '0' <= c <= '9'
  }

  /** The value of `c` as a digit of radix up to 36, or 36 when it is none. */
  function DigitValue(c: char): (d: nat)
    ensures d <= 36
  {
    if '0' <= c <= '9' then (c - '0') as nat
    else if 'a' <= c <= 'z' then (c - 'a') as nat + 10
    else 36
  }

  lemma DigitValueOfDigitChar(d: nat)
    requires d < 36
    ensures DigitValue(Digits36[d]) == d
  {
  }

  predicate AllDigits(s: string, base: nat) {
    forall i :: 0 <= i < |s| ==> DigitValue(s[i]) < base
  }

  /** `n.toString(base)`: most significant digit first, no leading zeros. */
  function NatToString(n: nat, base: nat): (r: string)
    requires 2 <= base <= 36
    ensures 1 <= |r|
    ensures AllDigits(r, base)
    ensures n > 0 ==> r[0] != '0'
    decreases n
  {
    DivModBounds(n, base);
    DigitValueOfDigitChar(n % base);
    if n < base then [Digits36[n]]
    else NatToString(n / base, base) + [Digits36[n % base]]
  }

  /** The quotient-and-remainder facts the digit recursion relies on. */
  lemma DivModBounds(n: nat, base: nat)
    requires 2 <= base
    ensures n % base < base
    ensures n < base ==> n % base == n
    ensures n >= base ==> 0 < n / base < n
    ensures n == n / base * base + n % base
  {
  }

  /** `parseInt(s, base)` on a string made only of digits of that base. */
  function ParseNat(s: string, base: nat): nat
    requires AllDigits(s, base)
  {
    if |s| == 0 then 0
    else ParseNat(s[..|s| - 1], base) * base + DigitValue(s[|s| - 1])
  }

  /** Rendering a number and parsing it back gives the number again. */
  lemma {:induction false} ParseNatToString(n: nat, base: nat)
    requires 2 <= base <= 36
    ensures ParseNat(NatToString(n, base), base) == n
    decreases n
  {
    var r := NatToString(n, base);
    DivModBounds(n, base);
    DigitValueOfDigitChar(n % base);
    if n < base {
      assert r[..0] == [];
    } else {
      var prefix := NatToString(n / base, base);
      assert r == prefix + [Digits36[n % base]];
      assert r[..|r| - 1] == prefix;
      ParseNatToString(n / base, base);
    }
  }

  /** Decimal rendering of an integer, as template literals print it. */
  function IntToString(i: int): (r: string)
    ensures 1 <= |r|
    ensures i < 0 <==> r[0] == '-'
  {
    if i < 0 then "-" + NatToString(-i, 10) else NatToString(i, 10)
  }

  /** The value of a run of decimal digits, as `parseInt` reads it. */
  function DecimalValue(s: string): nat
    requires forall i :: 0 <= i < |s| ==> IsDecimalDigit(s[i])
  {
    if |s| == 0 then 0
    else DecimalValue(s[..|s| - 1]) * 10 + DigitValue(s[|s| - 1])
  }

  /** `s.split(sep)` for a one-character separator. */
  function Split(s: string, sep: char): (parts: seq<string>)
    ensures 1 <= |parts|
    ensures forall i :: 0 <= i < |parts| ==> sep !in parts[i]
  {
    if |s| == 0 then [""]
    else
      var rest := Split(s[1..], sep);
      if s[0] == sep then [""] + rest
      else [[s[0]] + rest[0]] + rest[1..]
  }

  /** `parts.join(sep)`. */
  function Join(parts: seq<string>, sep: char): string
    requires 1 <= |parts|
  {
    if |parts| == 1 then parts[0]
    else parts[0] + [sep] + Join(parts[1..], sep)
  }

  /** Joining the pieces of a split restores the original text. */
  lemma {:induction false} JoinSplit(s: string, sep: char)
    ensures Join(Split(s, sep), sep) == s
  {
    if |s| == 0 {
    } else {
      var rest := Split(s[1..], sep);
      JoinSplit(s[1..], sep);
      if s[0] == sep {
        assert Split(s, sep)[1..] == rest;
      } else {
        JoinHead(rest, [s[0]], sep);
        assert [s[0]] + s[1..] == s;
      }
    }
  }

  /** Extending the first piece extends the joined text at the front. */
  lemma {:induction false} JoinHead(parts: seq<string>, pre: string, sep: char)
    requires 1 <= |parts|
    ensures Join([pre + parts[0]] + parts[1..], sep) == pre + Join(parts, sep)
  {
    var q := [pre + parts[0]] + parts[1..];
    if |parts| == 1 {
      assert q == [pre + parts[0]];
    } else {
      assert q[1..] == parts[1..];
      assert q[0] == pre + parts[0];
    }
  }

  /** Splitting the join of separator-free pieces gives the pieces back. */
  lemma {:induction false} SplitJoin(parts: seq<string>, sep: char)
    requires 1 <= |parts|
    requires forall i :: 0 <= i < |parts| ==> sep !in parts[i]
    ensures Split(Join(parts, sep), sep) == parts
    decreases |parts|, |parts[0]|
  {
    var p := parts[0];
    if |p| == 0 {
      if |parts| == 1 {
      } else {
        var tail := Join(parts[1..], sep);
        assert Join(parts, sep) == [sep] + tail;
        assert ([sep] + tail)[1..] == tail;
        SplitJoin(parts[1..], sep);
        assert [""] + parts[1..] == parts;
      }
    } else {
      var shorter := [p[1..]] + parts[1..];
      assert shorter[1..] == parts[1..];
      assert forall i :: 0 <= i < |shorter| ==> sep !in shorter[i] by {
        forall i | 0 <= i < |shorter| ensures sep !in shorter[i] {
          if i == 0 {
            assert forall c :: c in p[1..] ==> c in p;
          }
        }
      }
      SplitJoin(shorter, sep);
      JoinHead(shorter, [p[0]], sep);
      assert [p[0]] + p[1..] == p;
      assert [[p[0]] + shorter[0]] + shorter[1..] == parts;
      var whole := Join(parts, sep);
      assert whole == [p[0]] + Join(shorter, sep);
      assert whole[0] == p[0] && whole[0] != sep;
      assert whole[1..] == Join(shorter, sep);
    }
  }

  /**
   * The characters `String.prototype.trim` removes: ECMAScript WhiteSpace
   * (tab, vertical tab, form feed, space, no-break space, byte order mark and
   * the Unicode space separators) and LineTerminator.
   */
  predicate IsJsWhitespace(c: char) {
    || c == '\t' || c == '\n' || c == '\U{000B}' || c == '\U{000C}' || c == '\r'
    || c == ' ' || c == '\U{00A0}' || c == '\U{1680}'
    || ('\U{2000}' <= c <= '\U{200A}')
    || c == '\U{2028}' || c == '\U{2029}' || c == '\U{202F}' || c == '\U{205F}'
    || c == '\U{3000}' || c == '\U{FEFF}'
  }

  /** `line.trim()` is the empty (falsy) string. */
  predicate IsBlank(line: string) {
    forall i :: 0 <= i < |line| ==> IsJsWhitespace(line[i])
  }

  function LowerChar(c: char): char {
    if 'A' <= c <= 'Z' then (c - 'A' + 'a') as char else c
  }

  /** `toLowerCase`, restricted to the ASCII letters. */
  function Lower(s: string): (r: string)
    ensures |r| == |s|
    ensures forall i :: 0 <= i < |s| ==> r[i] == LowerChar(s[i])
  {
    seq(|s|, i requires 0 <= i < |s| => LowerChar(s[i]))
  }

  /** Lower-casing twice is lower-casing once. */
  lemma LowerIdempotent(s: string)
    ensures Lower(Lower(s)) == Lower(s)
  {
  }
}

=== FILE: wrappers.dfy ===
/** Failure-carrying datatypes shared by every module of the model. */
module Wrappers {

  /** An optional value: the model's stand-in for `undefined` and `null`. */
  datatype Option<+T> = None | Some(value: T) {

    /** The value, or `default` when there is none. */
    function GetOr(default: T): T {
      match this
      case Some(v) => v
      case None => default
    }
  }

  /** The outcome of a step that can fail with an error message. */
  datatype Result<+T> = Success(value: T) | Failure(error: string) {

    predicate IsFailure() {
      Failure?
    }

    function PropagateFailure<U>(): Result<U>
      requires Failure?
    {
      Failure(error)
    }

    function Extract(): T
      requires Success?
    {
      value
    }
  }

  /** JavaScript truthiness of an optional string: present and non-empty. */
  predicate Truthy(s: Option<string>) {
    s.Some? && s.value != ""
  }

  /** `s || fallback` for an optional string. */
  function OrElse(s: Option<string>, fallback: string): (r: string)
    ensures Truthy(s) ==> r == s.value
    ensures !Truthy(s) ==> r == fallback
  {
    if Truthy(s) then s.value else fallback
  }
}
